=== FILE: README.md ===
# License resolution of the SBOM generator, in Dafny

This project models the license-resolution core of `sbom_generator.py` and proves its
properties. The generator runs an image scanner, turns each line of the scanner's template
output into a package with licenses, fills in missing licenses, then merges duplicate
packages (sbom_generator.py:676-681). Missing licenses come from Maven Central descriptors
(following parent descriptors), from GitHub, or from name heuristics. It then counts the
result for its report.

The modules follow the program's classes:

| file | module | models |
|---|---|---|
| `wrappers.dfy` | `Wrappers` | `Option` |
| `strings.dfy` | `Strings` | the parts of Python's `str` the code relies on: `isspace`, `strip`, `lower`, `startswith`, `in`, `find` |
| `license_mapper.dfy` | `LicenseMapper` | `LicenseMapper.get_url` and `_apply_heuristics`: the canonical-URL table and its ordered keyword rules |
| `domain.dfy` | `Domain` | the `License` and `Package` dataclasses, including `License.__post_init__` |
| `maven_central.dfy` | `MavenCentral` | `extract_licenses_from_pom` and `lookup_license_recursively`, over a descriptor oracle |
| `package_heuristics.dfy` | `PackageHeuristics` | `HEURISTIC_RULES` and `apply_heuristics` |
| `syft_parser.dfy` | `SyftParser` | `SyftOutputParser.parse` and `_parse_license_text`; the three regular expressions are hand-written scanners |
| `deduplicator.dfy` | `Deduplicator` | `PackageDeduplicator.deduplicate` |
| `enricher.dfy` | `Enricher` | `LicenseEnricher`: purl coordinates, the per-package lookup, and the in-place enrichment loop |
| `report.dfy` | `Report` | the integer counts of `_calculate_statistics` |

Each loop of the source is a method. It is proved equal to a specification function, and
the properties are lemmas about that function.

- **Parser and license-text splitter.** `Parse` and `ParseLicenseText` equal `ParseSpec` and
  `LicenseTextSpec`.
- **Deduplicator.** `Deduplicate` keeps a map and a key order, like the source's dictionary.
  It equals `DedupSpec`: one package per key, in first-seen order.
- **Enricher.** `EnrichPackages` updates an array of package records in place. The final
  array is `EnrichAll` of the original one.

**Oracles.**
- Fetching and parsing a descriptor is `Fetch = Triple -> Option<Descriptor>`.
- The GitHub license service is `GitHubApi = string -> seq<License>`.

Both are pure, so the source's memoisation of the fetch changes nothing.

**The comma split follows the code, not its comment.** The comment at
`sbom_generator.py:410` says commas inside "Version X.X" are not split. The expression at
:411 (`,\s*(?![Vv]ersion\b)`) still splits "EPL, Version 2.0": `\s*` can match nothing, and
the lookahead then sees " Version" rather than "Version". Only a comma directly followed by a
`Version`/`version` word is kept. `VersionAfterSpaceIsSplit` proves that the model splits this
text into "EPL" and " Version 2.0".

## Model

| member | source | states |
|---|---|---|
| LicenseMapper.KnownUrl.Text | sbom_generator.py:74-116 | every URL of the table starts with "http" and ends with its non-empty host and path, which follow the scheme |
| LicenseMapper.Normalize | sbom_generator.py:122 | the normalised name neither starts nor ends with a double quote |
| LicenseMapper.NormalizeOfNormal | sbom_generator.py:122 | a name with no upper-case letter and no whitespace or quote at its ends is left unchanged by normalisation |
| LicenseMapper.KeyIndex | sbom_generator.py:125-126 | the position found holds the key searched for; no position is found only when no entry from the start on has that key |
| LicenseMapper.KeysDistinct | sbom_generator.py:74-116 | the keys of the table are pairwise distinct, as the keys of a dictionary |
| LicenseMapper.GetUrlByTable | sbom_generator.py:119-126 | a name whose normalised form is a table key gets exactly that key's URL |
| LicenseMapper.GetUrlByRules | sbom_generator.py:119-129 | a name whose normalised form is no table key gets what the keyword rules answer |
| LicenseMapper.UnmappedIsNoKey | sbom_generator.py:119-129 | a name left without a URL is not a table key once normalised |
| LicenseMapper.NonApacheKeyLacksAChar | sbom_generator.py:74-116 | every key whose URL is not the Apache 2.0 one lacks one of 'a', 'p', 'h', '2', so it cannot hold both "apache" and "2.0" |
| LicenseMapper.FirstFiringRuleWins | sbom_generator.py:131-160 | when rule k is the first of the eight keyword rules to fire, the rules answer what rule k answers |
| LicenseMapper.NoFiringRuleNoUrl | sbom_generator.py:131-165 | the rules answer nothing exactly when none of the eight fires |
| LicenseMapper.ApacheWithVersion | sbom_generator.py:125-134 | a name whose normalised form holds "apache" and "2.0" maps to the Apache 2.0 URL, from the table or from the first rule |
| LicenseMapper.GplKeys | sbom_generator.py:92-94 | the only table keys with a GNU GPL URL are "gpl-2.0", "gpl-3.0" and "gnu general public license v2" |
| LicenseMapper.GplKeyIsNotLesser | sbom_generator.py:92-94 | no table key with a GPL URL contains "lgpl" or "lesser" |
| LicenseMapper.RulesAnswerLesserName | sbom_generator.py:147-153 | a name holding "lgpl" or "lesser" gets a URL from the rules, never a GPL one, because the LGPL rule comes before the GPL rule |
| LicenseMapper.LesserNeverGpl | sbom_generator.py:119-153 | through the table or the rules, a name holding "lgpl" or "lesser" always gets a URL, and never a GPL URL |
| LicenseMapper.RulesAnswerMitByPrefix | sbom_generator.py:136-137 | the rules answer the MIT URL only for a name starting with "mit" |
| LicenseMapper.MitKeys | sbom_generator.py:83-84 | the table keys with the MIT URL start with "mit" |
| LicenseMapper.MitOnlyByPrefix | sbom_generator.py:119-137 | the MIT URL is given only to a name whose normalised form starts with "mit" |
| Domain.NewLicense | sbom_generator.py:39-46 | a given non-blank URL is kept; a blank or absent one is replaced by the canonical URL of the name; the URL is never the empty string |
| MavenCentral.EntryLicense | sbom_generator.py:239-246 | an element gives no license exactly when its stripped name is empty; otherwise the name is the stripped name and the URL is the stripped URL text, or the canonical URL when that text is empty |
| MavenCentral.EntryLicenses | sbom_generator.py:239-246 | one element gives at most one license |
| MavenCentral.DeclaredLicenses | sbom_generator.py:234-246 | at most one license per element; every name is non-empty and trimmed, and no URL is the empty string |
| MavenCentral.NoDeclaredLicenses | sbom_generator.py:239-246 | no license is declared exactly when every element's stripped name is empty |
| MavenCentral.ExtractLicenses | sbom_generator.py:230-259 | declared licenses win; with none and no SCM URL the result is empty |
| MavenCentral.GitHubLicenses | sbom_generator.py:300-303 | the GitHub service gives licenses only for a URL containing "github.com", and then exactly its answer |
| MavenCentral.ScmFallback | sbom_generator.py:248-259 | with no declared licenses, the result is the service's answer for a `github.com` SCM URL and nothing otherwise |
| MavenCentral.OnlyGitHubFallback | sbom_generator.py:248-257 | with no declared licenses, a non-empty result comes only from a `github.com` SCM URL, and it is the service's answer for that URL |
| MavenCentral.ReadLicenseElement | sbom_generator.py:239-246 | the loop body (strip name and URL, skip an empty name, canonical URL when the URL is empty) gives `EntryLicenses` |
| MavenCentral.DeclaredLicensesStep | sbom_generator.py:234-246 | reading one more element appends exactly that element's license |
| MavenCentral.ReadLicenseElements | sbom_generator.py:234-246 | the loop over the license elements gives `DeclaredLicenses` |
| MavenCentral.ExtractLicensesFromPom | sbom_generator.py:230-259 | the loop over the license elements followed by the SCM fallback gives `ExtractLicenses` |
| MavenCentral.ParentTriple | sbom_generator.py:280-290 | there is no parent exactly when the stripped artifact or version is empty; otherwise the parts are stripped, and the group falls back to the child's group when its text is empty |
| MavenCentral.LookupStep | sbom_generator.py:265-293 | a non-empty answer at one level is the fetched descriptor's licenses; the lookup climbs only from a fetched descriptor without licenses, to its complete parent |
| MavenCentral.Walk | sbom_generator.py:262-293 | depth zero finds nothing; a non-empty answer is what the last triple of the walked chain answers |
| MavenCentral.WalkChain | sbom_generator.py:262-293 | a walk visits at most `maxDepth` triples and starts at the given one |
| MavenCentral.WalkFollowsChain | sbom_generator.py:262-293 | each visited triple climbs to the next, and a non-empty answer is the last triple's |
| MavenCentral.Lookup | sbom_generator.py:262-293 | depth zero finds nothing; a non-empty answer is the licenses of the last descriptor fetched along the chain |
| MavenCentral.Chain | sbom_generator.py:262-293 | the lookup fetches at most `max_depth` descriptors |
| MavenCentral.ZeroDepthFindsNothing | sbom_generator.py:264-265 | depth zero fetches nothing and finds nothing |
| MavenCentral.LookupReadsOnlyChain | sbom_generator.py:262-293 | two fetch oracles that agree on the chain give the same chain and the same licenses, so only the chain's descriptors (at most `max_depth`) are fetched |
| MavenCentral.ImmediateLicensesWin | sbom_generator.py:268-273 | licenses of the first descriptor are the answer, and no parent is fetched |
| MavenCentral.IncompleteParentFindsNothing | sbom_generator.py:276-288 | a descriptor without licenses whose parent lacks an artifact or a version ends the lookup with nothing |
| MavenCentral.FoundAtEndOfChain | sbom_generator.py:262-293 | along the chain every descriptor has no licenses and names the next triple as its parent; the licenses found are the last descriptor's |
| MavenCentral.WalkAlongLinked | sbom_generator.py:262-293 | a walk along a linked chain no longer than the depth ending at an answer visits exactly that chain and gives that answer |
| MavenCentral.WalkBeyondDepth | sbom_generator.py:264-265 | a walk along a linked chain longer than the depth stops after `maxDepth` triples with nothing |
| MavenCentral.ParentChainIsLinked | sbom_generator.py:268-293 | along a chain of fetched descriptors without licenses, each naming the next triple as its complete parent, every lookup step climbs to the next triple |
| MavenCentral.LookupClimbs | sbom_generator.py:276-293 | a fetched descriptor without licenses and with a complete parent answers what the parent answers one level less deep, and the chain continues at the parent |
| MavenCentral.FoundWithinDepth | sbom_generator.py:262-293 | a parent chain no longer than the depth whose last descriptor has licenses is exactly the lookup's chain, and those licenses are the answer |
| MavenCentral.NothingBeyondDepth | sbom_generator.py:262-293 | along a parent chain longer than the depth, the lookup fetches its first `max_depth` triples and finds nothing |
| PackageHeuristics.FirstMatch | sbom_generator.py:357-361 | the result is the first matching rule at or after `from`, and nothing when none matches |
| PackageHeuristics.HeuristicLicenses | sbom_generator.py:355-362 | at most one license; none exactly when no rule matches; otherwise the license of the first matching rule in declaration order, since every earlier rule fails to match |
| PackageHeuristics.ApplyHeuristics | sbom_generator.py:355-362 | the nested loops with early return give `HeuristicLicenses` |
| PackageHeuristics.FirstMatchIsFirst | sbom_generator.py:357-361 | a matching rule preceded by no matching rule is the one applied |
| PackageHeuristics.ApacheUrlIsCanonical | sbom_generator.py:330 | the Apache rule's URL is the canonical URL of "apache-2.0" |
| PackageHeuristics.BsdUrlIsCanonical | sbom_generator.py:345 | the BSD rule's URL is the canonical URL of "bsd-3-clause" |
| PackageHeuristics.EplUrlIsCanonical | sbom_generator.py:341 | the EPL rule's URL is the canonical URL of "eclipse public license - v 2.0" |
| PackageHeuristics.JakartaUnderApache | sbom_generator.py:329-342 | a `jakarta` package with an `org.apache` purl gets Apache-2.0, because the Apache rule comes first |
| PackageHeuristics.JakartaElsewhere | sbom_generator.py:329-342 | any other `jakarta` package gets EPL-2.0 |
| SyftParser.LineEnd | sbom_generator.py:375 | the end of a line is the first line-break character at or after the start |
| SyftParser.Lines | sbom_generator.py:375 | a text splits into at least one line |
| SyftParser.LinesHaveNoBreaks | sbom_generator.py:375 | no line holds a line-break character |
| SyftParser.LinesKeepText | sbom_generator.py:375 | the lines put together are the text without its line breaks |
| SyftParser.MatchPositions | sbom_generator.py:368 | the positions found are those of the two colons and of " -", with a non-empty name, version and purl between them |
| SyftParser.MatchPositionsLeftmost | sbom_generator.py:368 | each position found is the first one possible: no ':' in the name after its first character, none in the version after its first character, no " -" earlier in the purl |
| SyftParser.GroupsAtRebuild | sbom_generator.py:368 | groups cut at the positions of the pattern rebuild the line |
| SyftParser.GroupsAtLeftmost | sbom_generator.py:368 | groups cut at the first possible positions are the shortest groups |
| SyftParser.MatchLineIffShape | sbom_generator.py:368-383 | the scanner accepts a line exactly when it has the pattern's shape: a name, ':', a version, ':', a purl, then " -" |
| SyftParser.MatchLineRebuilds | sbom_generator.py:368 | the groups rebuild the line as `name:version:purl - text`, or `name:version:purl -text` with a text not starting with a space |
| SyftParser.MatchLineLeftmost | sbom_generator.py:368 | the lazy groups are the shortest ones: name and version are non-empty with no ':' after their first character, and the purl holds no " -" |
| SyftParser.RunEnd | sbom_generator.py:411 | the end of `\s*` is the first position at or after the start that is not whitespace, and everything before it is whitespace |
| SyftParser.TokenEnd | sbom_generator.py:416 | the end of `\S+` is the first whitespace position at or after the start, and nothing before it is whitespace |
| SyftParser.SeparatorEnd | sbom_generator.py:411 | a separator match starting at a comma covers only whitespace after it and ends where no `Version`/`version` word starts |
| SyftParser.SeparatorIsLongest | sbom_generator.py:411 | every longer whitespace run after the comma ends at a `Version`/`version` word, so the match is the longest `\s*` the lookahead allows, and no match means every end fails the lookahead |
| SyftParser.SeparatorUnlessVersion | sbom_generator.py:411 | a comma is a separator exactly when it is not directly followed by the word `Version`/`version` |
| SyftParser.SplittingCommas | sbom_generator.py:411 | the positions listed are splitting commas within the text |
| SyftParser.SplittingCommasComplete | sbom_generator.py:411 | every splitting comma at or after the start is listed |
| SyftParser.SplittingCommasIncreasing | sbom_generator.py:411 | the positions are listed in increasing order |
| SyftParser.SeparatorStop | sbom_generator.py:411 | the end of a splitting comma's separator lies after the comma, within the text |
| SyftParser.SplitAtComma | sbom_generator.py:411 | at a splitting comma the current part ends, and splitting resumes after the separator |
| SyftParser.PartAtShift | sbom_generator.py:411 | a part of the text after a separator is the next part of the whole text |
| SyftParser.SplitFromParts | sbom_generator.py:411 | splitting from a position gives one part more than the splitting commas after it, each part being the text between consecutive separators |
| SyftParser.SplitParts | sbom_generator.py:411 | the parts are exactly the texts between consecutive separators: the first runs from the start to the first splitting comma, each later one from the end of a separator to the next splitting comma or the end |
| SyftParser.SplitCount | sbom_generator.py:411 | the number of parts is one more than the number of splitting commas |
| SyftParser.PartsKeepOnlyVersionCommas | sbom_generator.py:411 | every comma left inside a part is directly followed by `Version`/`version` |
| SyftParser.UnsplitText | sbom_generator.py:411 | a text with no splitting comma is one part |
| SyftParser.VersionAfterSpaceIsSplit | sbom_generator.py:410-411 | "EPL, Version 2.0" is split into "EPL" and " Version 2.0" |
| SyftParser.UrlLength | sbom_generator.py:416 | a URL match starts at an 'h' and stays within the text |
| SyftParser.UrlLengthIsMatch | sbom_generator.py:416 | a match starts exactly where the scheme is followed by a non-space character, and the length is the only one of a match of `https?://\S+` there: scheme, then the longest run of non-space characters |
| SyftParser.RemoveUrlsFrom | sbom_generator.py:416 | removing URLs never lengthens the rest of the text |
| SyftParser.RemoveUrls | sbom_generator.py:416 | removing URLs never lengthens the text |
| SyftParser.RemoveUrlsFromWithoutUrl | sbom_generator.py:416 | with no match from a position on, the removal keeps the rest of the text |
| SyftParser.KeptPrefix | sbom_generator.py:416 | the removal's result and the text share a prefix after which the result either ends or continues with a space, the space that ended a removed URL |
| SyftParser.RemoveUrlsFromLeavesNone | sbom_generator.py:416 | no match of `https?://\S+` is left anywhere in the result of the removal |
| SyftParser.NoSchemeNoUrl | sbom_generator.py:416 | a text holding neither "http://" nor "https://" holds no match |
| SyftParser.RemoveUrlsDeletes | sbom_generator.py:416 | removing URLs only deletes characters, leaves no match behind, and leaves a text without a match unchanged |
| SyftParser.TrailingUrlDropped | sbom_generator.py:416 | a URL that ends the text after a name without 'h' is removed and the name kept |
| SyftParser.CleanName | sbom_generator.py:414-416 | a cleaned name is trimmed and holds no ';' |
| SyftParser.PartLicenses | sbom_generator.py:414-419 | one part gives at most one license |
| SyftParser.ReadPart | sbom_generator.py:414-419 | the loop body (strip, remove URLs, cut at ';', strip, keep when non-empty) gives `PartLicenses` |
| SyftParser.CleanLicenses | sbom_generator.py:413-419 | at most one license per part |
| SyftParser.CleanLicensesNamed | sbom_generator.py:413-419 | every name is non-empty, trimmed and free of ';' |
| SyftParser.CleanLicensesStep | sbom_generator.py:413-419 | reading one more part appends exactly that part's license |
| SyftParser.ReadParts | sbom_generator.py:413-419 | the loop over the parts gives `CleanLicenses` |
| SyftParser.LicenseTextSpec | sbom_generator.py:405-406 | an empty text or "-" gives no license |
| SyftParser.LicenseTextNamed | sbom_generator.py:403-421 | every license name read from a text is non-empty, trimmed and free of ';' |
| SyftParser.ParseLicenseText | sbom_generator.py:403-421 | the early exit, the split and the loop over the parts give `LicenseTextSpec` |
| SyftParser.CleanLicensesUrls | sbom_generator.py:413-419 | every license of the parts carries the canonical URL of its name |
| SyftParser.LicenseTextUrls | sbom_generator.py:413-419 | every parsed license carries the canonical URL of its name |
| SyftParser.SingleLicenseText | sbom_generator.py:404-421 | a trimmed text other than "-" without ',', ';', "http://" or "https://" gives exactly one license of that name |
| SyftParser.NameThenUrl | sbom_generator.py:411-419 | a name (trimmed, without ',', ';' or 'h') followed by "; " and a URL gives exactly one license of that name, with the URL the name maps to rather than the URL in the text |
| SyftParser.UrlDroppedFromName | sbom_generator.py:411-419 | worked example of `NameThenUrl`: "MIT; http://example.com/license" gives one license, named "MIT", carrying the canonical MIT URL rather than the URL in the text |
| SyftParser.ParseLineNamed | sbom_generator.py:376-399 | a parsed line gives a package with source "Original" and a non-empty name |
| SyftParser.ParseOne | sbom_generator.py:376-399 | the loop body (strip, skip a blank line, match, strip the groups, the `alfresco-` fallback, parse the text) gives `ParseLine` |
| SyftParser.LinePackages | sbom_generator.py:376-399 | a line gives at most one package |
| SyftParser.ParsedLines | sbom_generator.py:373-401 | at most one package per line |
| SyftParser.ParsedLinesNamed | sbom_generator.py:373-401 | every parsed package has source "Original" and a non-empty name |
| SyftParser.ParsedLinesAppend | sbom_generator.py:373-401 | reading one more line appends exactly that line's package |
| SyftParser.ParseStep | sbom_generator.py:374-399 | one turn of the loop extends the packages of the lines read by those of the next line |
| SyftParser.ParseLines | sbom_generator.py:373-401 | the loop over the lines gives `ParsedLines` |
| SyftParser.ParseSpec | sbom_generator.py:371-401 | at most one package per line of the output, each with source "Original" and a non-empty name |
| SyftParser.Parse | sbom_generator.py:371-401 | splitting the output into lines and looping over them gives `ParseSpec` |
| SyftParser.SkippedLines | sbom_generator.py:376-383 | a line is skipped exactly when it is blank or does not match the pattern |
| SyftParser.EffectiveTextOnlyFallback | sbom_generator.py:387-389 | a non-empty license text other than "-" is kept; the text is replaced only for an `alfresco-` package with an empty or "-" text, and then by the LGPL 3.0 name |
| SyftParser.AlfrescoFallback | sbom_generator.py:387-391 | an `alfresco-` package with an empty or "-" license text gets exactly one license, "GNU Lesser General Public License v3.0 or later" |
| Deduplicator.MergeIntoExtends | sbom_generator.py:445-449 | merging keeps the existing licenses as a prefix and adds only licenses of the package |
| Deduplicator.MergeIntoDistinct | sbom_generator.py:445-449 | merging into a list with distinct names keeps the names distinct |
| Deduplicator.MergeIntoNames | sbom_generator.py:445-449 | the merged names are the union of the existing and the new names |
| Deduplicator.MergeIntoAppend | sbom_generator.py:432-449 | merging two lists in turn is merging their concatenation |
| Deduplicator.FirstWith | sbom_generator.py:433-442 | the first package with a key is in the list, and it is absent exactly when no package has that key |
| Deduplicator.KeysInOrder | sbom_generator.py:430-451 | the keys are exactly the keys of the list, without repetition and no more numerous than the packages |
| Deduplicator.MergeLicenses | sbom_generator.py:445-449 | the inner loop with its name set gives `MergeInto`, and the set is the names of the result |
| Deduplicator.KeysStep | sbom_generator.py:433-442 | one more package adds its key at the end exactly when the key is new |
| Deduplicator.DedupStep | sbom_generator.py:432-449 | one step of the loop keeps the dictionary equal to the merged packages of the prefix read, its keys in first-seen order |
| Deduplicator.AddPackage | sbom_generator.py:432-449 | the loop body (create the entry for a new key, merge the package's licenses into it) keeps the dictionary invariant |
| Deduplicator.Deduplicate | sbom_generator.py:428-451 | the loop over the dictionary gives `DedupSpec` |
| Deduplicator.ValuesInOrder | sbom_generator.py:451 | the values are listed in the order of the keys |
| Deduplicator.FirstIndex | sbom_generator.py:432-442 | the first position holding the key, or the length when there is none |
| Deduplicator.FirstWithAtFirstIndex | sbom_generator.py:432-442 | the first package with a key sits at the key's first position |
| Deduplicator.KeysInFirstSeenOrder | sbom_generator.py:430-451 | the keys come in the order of their first occurrence |
| Deduplicator.DedupKeysAre | sbom_generator.py:428-451 | the output holds one package for each key, in the key order |
| Deduplicator.DedupKeysDistinct | sbom_generator.py:428-451 | the output keys are pairwise distinct, and the output is no longer than the input |
| Deduplicator.DedupKeepsEveryKey | sbom_generator.py:428-451 | every key of the input has a package in the output |
| Deduplicator.DedupFirstSeenOrder | sbom_generator.py:428-451 | the output comes in the order of the keys' first occurrences |
| Deduplicator.DedupTakesFirstMember | sbom_generator.py:435-442 | each output package takes its name, version, purl and source from the first package of its group |
| Deduplicator.GroupLicensesMergeAll | sbom_generator.py:432-449 | a group's merged licenses are its members' licenses concatenated and merged once |
| Deduplicator.MergeKeepsFirstOccurrences | sbom_generator.py:443-449 | merging a list into an empty one keeps exactly the licenses at the first position of each name, in the order of those positions |
| Deduplicator.DedupLicenses | sbom_generator.py:443-449 | each output package's licenses are its group's licenses, each name at its first occurrence: the names are pairwise distinct, they are exactly the group's names, every license comes from the group, and the list is the group's first occurrence of each name in first-seen order |
| Enricher.ExtractMavenCoordinates | sbom_generator.py:499-510 | the coordinates read back rebuild the purl as "pkg:maven/" + group + "/" + artifact + "@" + version; the group holds no '/' or '@', and the artifact no '@' |
| Enricher.CoordinatesWhen | sbom_generator.py:499-510 | coordinates are found exactly when the purl starts with "pkg:maven/" and has an '@' with a '/' before it |
| Enricher.CoordinatesRoundTrip | sbom_generator.py:499-510 | coordinates written into a purl are read back unchanged |
| Enricher.LookupPackageLicenses | sbom_generator.py:486-496 | Maven first, then the heuristics; gives `PackageLookup` |
| Enricher.MavenBeforeHeuristics | sbom_generator.py:486-496 | the heuristics are used only when the purl has no coordinates or the Maven lookup finds nothing |
| Enricher.Unlicensed | sbom_generator.py:460 | the positions are exactly those of the packages without licenses, in increasing order |
| Enricher.CollectUnlicensed | sbom_generator.py:460 | the loop gives `Unlicensed` of the array |
| Enricher.BetweenPendingIsLicensed | sbom_generator.py:460 | the packages between two consecutive pending positions have licenses |
| Enricher.BeforePendingIsLicensed | sbom_generator.py:460 | the packages before the first pending position have licenses |
| Enricher.PrefixBeforePendingIsLicensed | sbom_generator.py:460 | the first pending position is within the list, and every package before it has licenses |
| Enricher.EnrichOne | sbom_generator.py:468-478 | name, version and purl are kept; a package with licenses is unchanged; a changed package has non-empty licenses and the enriched source |
| Enricher.EnrichAll | sbom_generator.py:458-483 | the length is kept, and every package that had licenses is unchanged |
| Enricher.EnrichedBefore | sbom_generator.py:468-478 | enriching a prefix keeps the length |
| Enricher.EnrichPackages | sbom_generator.py:458-483 | after the in-place loop the array is `EnrichAll` of its old contents |
| Enricher.EnrichmentChangesOnlyUnlicensed | sbom_generator.py:458-483 | length and order are kept; name, version and purl never change; licensed packages are untouched; a changed package takes its non-empty lookup result and the enriched source; a package has licenses afterwards exactly when it had some or its lookup found some |
| Report.CountLicensed | sbom_generator.py:532 | the licensed packages are no more numerous than the packages |
| Report.AddNames | sbom_generator.py:537-538 | the inner loop adds one package's license names to the set |
| Report.CalculateStatistics | sbom_generator.py:529-544 | total, with-licenses, without-licenses and unique-name counts are the list's length, `CountLicensed`, their difference and the size of `AllLicenseNames` |
| Report.NamesInMembers | sbom_generator.py:537-538 | a name is collected exactly when some license of the list carries it |
| Report.AllLicenseNamesMembers | sbom_generator.py:535-538 | a name is counted exactly when some package has a license of that name |
| Report.NamesInNonEmpty | sbom_generator.py:537-538 | a license list gives names exactly when it is non-empty |
| Report.UniqueLicensesIffLicensed | sbom_generator.py:532-544 | there are no license names exactly when no package has licenses |
| Report.AllLicensedIffFull | sbom_generator.py:532 | the licensed count equals the total exactly when every package has licenses |
| Report.WithoutLicensesArePending | sbom_generator.py:529-533 | the packages without licenses are the ones the enricher gathers |
| Report.CountLicensedMonotone | sbom_generator.py:532 | a list that keeps every licensed position licensed counts at least as many licensed packages |
| Report.EnrichmentKeepsCoverage | sbom_generator.py:458-483 | enrichment never lowers the number of licensed packages |

## Left out

- The scanner run (`SyftRunner`, subprocess and exit status) is not part of this model. `Parse` takes the scanner's output text as a parameter.
- Fetching a Maven descriptor over HTTP and parsing its XML (`fetch_pom`, and the XPath lookups in `extract_licenses_from_pom` and `lookup_license_recursively`) become the oracle `Fetch`. It returns a descriptor's license elements, SCM URL and parent element already read.
  - The namespaced/non-namespaced alternatives and the truthiness of XML elements are therefore not modelled.
- The `lru_cache` on `fetch_pom` is not modelled: the oracle is pure, so caching changes no result.
- The GitHub client's HTTP request, JSON decoding and error handling become the oracle `GitHubApi`. Only its `github.com` guard is modelled.
- Rate-limiting sleeps and every diagnostic `print` are left out, including the "missing URL mapping" message. So is the `context` argument of `get_url`, which only feeds that message.
- The HTML report (`_generate_package_rows`, `_render_html_template`), its timestamp, and the program's command line and file output (`main`) are not modelled.
- Report.CalculateStatistics: the floating-point `license_coverage` string is not modelled; only the integer counts are.
- Strings.Lower: only ASCII letters are lowered. Python's `str.lower()` also lowers other alphabets.
- SyftParser.VersionAfterSpaceIsSplit: the word boundary `\b` is decided with ASCII word characters (`IsWordChar`). Python's `re` treats every Unicode letter and digit as a word character.
- SyftParser.Lines: the text is cut at every line-break character, so "\r\n" and a trailing break give extra empty lines that `str.splitlines()` would not. Such lines are blank and `Parse` skips them, so the packages are the same.
- MavenCentral.Lookup: `max_depth` is a natural number. The source's default is 4 (`MaxDepth`), and a negative depth, which the source never passes, is not modelled.
- Enricher.EnrichPackages: packages are records in an array. The model therefore does not capture one `Package` object appearing at two positions of the list. The source builds the list from freshly made objects, and the objects it updates are those of the list, so each position is updated where it stands.

=== FILE: deduplicator.dfy ===
/**
 * `Deduplicator`: the packages of the bill of materials grouped by name and
 * version, in the order their keys are first seen, each group's license
 * lists merged by license name.
 */
module Deduplicator {
  import opened Wrappers
  import opened Domain

  /** `unique_key` of a package. */
  type Key = (string, string)

  /** The names of a license list. */
  function Names(ls: seq<License>): set<string> {
    set l | l in ls :: l.name
  }

  /** No two licenses of the list share a name. */
  predicate DistinctNames(ls: seq<License>) {
    forall a, b :: 0 <= a < b < |ls| ==> ls[a].name != ls[b].name
  }

  /**
   * The license list `acc` extended by the licenses of `ls` whose name it
   * does not hold yet, in order: the inner loop of `deduplicate`.
   */
  function MergeInto(acc: seq<License>, ls: seq<License>): seq<License>
    decreases |ls|
  {
    if ls == [] then acc
    else
      var m := MergeInto(acc, ls[..|ls| - 1]);
      if ls[|ls| - 1].name in Names(m) then m else m + [ls[|ls| - 1]]
  }

  /** Merging keeps `acc` as a prefix and adds only licenses of `ls`. */
  lemma {:induction false} MergeIntoExtends(acc: seq<License>, ls: seq<License>)
    ensures var r := MergeInto(acc, ls);
      && |acc| <= |r| && r[..|acc|] == acc
      && forall l :: l in r ==> l in acc || l in ls
    decreases |ls|
  {
    if ls != [] {
      var init := ls[..|ls| - 1];
      MergeIntoExtends(acc, init);
      var m := MergeInto(acc, init);
      var r := m + [ls[|ls| - 1]];
      assert r[..|acc|] == m[..|acc|];
      assert forall l :: l in init ==> l in ls;
    }
  }

  /** Merging into a list with distinct names keeps the names distinct. */
  lemma {:induction false} MergeIntoDistinct(acc: seq<License>, ls: seq<License>)
    requires DistinctNames(acc)
    ensures DistinctNames(MergeInto(acc, ls))
    decreases |ls|
  {
    if ls != [] {
      var init := ls[..|ls| - 1];
      var l := ls[|ls| - 1];
      MergeIntoDistinct(acc, init);
      var m := MergeInto(acc, init);
      if l.name !in Names(m) {
        var r := m + [l];
        forall a, b | 0 <= a < b < |r|
          ensures r[a].name != r[b].name
        {
          if b == |m| {
            assert r[a] in m;
          }
        }
      }
    }
  }

  /** Appending a license adds its name. */
  lemma NamesAppend(ls: seq<License>, l: License)
    ensures Names(ls + [l]) == Names(ls) + {l.name}
  {
    var s := ls + [l];
    assert forall x :: x in s <==> x in ls || x == l;
  }

  /** The merged list holds every name of either list. */
  lemma {:induction false} MergeIntoNames(acc: seq<License>, ls: seq<License>)
    ensures Names(MergeInto(acc, ls)) == Names(acc) + Names(ls)
    decreases |ls|
  {
    if ls == [] {
      assert Names(ls) == {};
    } else {
      var init := ls[..|ls| - 1];
      var l := ls[|ls| - 1];
      MergeIntoNames(acc, init);
      assert ls == init + [l];
      NamesAppend(init, l);
      var m := MergeInto(acc, init);
      if l.name !in Names(m) {
        NamesAppend(m, l);
      }
    }
  }

  /** Position `j` holds the first license of its name in `ls`. */
  predicate FirstOfName(ls: seq<License>, j: nat) {
    j < |ls| && forall k :: 0 <= k < j ==> ls[k].name != ls[j].name
  }

  /**
   * `r` is `ls` with every license dropped whose name occurred before:
   * `idx` lists, in increasing order, exactly the first positions of the
   * names of `ls`, and `r` holds the licenses at those positions.
   */
  predicate SelectsFirstOccurrences(ls: seq<License>, r: seq<License>, idx: seq<nat>) {
    && |idx| == |r|
    && (forall i :: 0 <= i < |idx| ==> FirstOfName(ls, idx[i]) && r[i] == ls[idx[i]])
    && (forall i, j :: 0 <= i < j < |idx| ==> idx[i] < idx[j])
    && (forall j :: 0 <= j < |ls| && FirstOfName(ls, j) ==> j in idx)
  }

  /** Merging into an empty list keeps the first license of each name, in the order of those first positions. */
  lemma {:induction false} MergeKeepsFirstOccurrences(ls: seq<License>) returns (idx: seq<nat>)
    ensures SelectsFirstOccurrences(ls, MergeInto([], ls), idx)
    decreases |ls|
  {
    if ls == [] {
      idx := [];
    } else {
      var n := |ls| - 1;
      var idx' := MergeKeepsFirstOccurrences(ls[..n]);
      MergeIntoNames([], ls[..n]);
      assert Names([]) == {};
      if ls[n].name in Names(MergeInto([], ls[..n])) {
        MergeSeenName(ls, idx');
        idx := idx';
      } else {
        var m := MergeInto([], ls[..n]);
        assert MergeInto([], ls) == m + [ls[n]];
        NewNameDiffers(ls);
        AppendFirstOccurrence(ls, m, idx');
        idx := idx' + [n];
      }
    }
  }

  /** Before the last position, a first occurrence in `ls` is one in `ls` without its last license. */
  lemma FirstOfNameInPrefix(ls: seq<License>, j: nat)
    requires j < |ls| - 1
    ensures FirstOfName(ls, j) <==> FirstOfName(ls[..|ls| - 1], j)
  {
    assert forall k :: 0 <= k <= j ==> ls[k] == ls[..|ls| - 1][k];
  }

  /** A last license whose name was merged already leaves the merge and its positions unchanged. */
  lemma MergeSeenName(ls: seq<License>, idx: seq<nat>)
    requires |ls| > 0
    requires SelectsFirstOccurrences(ls[..|ls| - 1], MergeInto([], ls[..|ls| - 1]), idx)
    requires ls[|ls| - 1].name in Names(ls[..|ls| - 1])
    requires ls[|ls| - 1].name in Names(MergeInto([], ls[..|ls| - 1]))
    ensures SelectsFirstOccurrences(ls, MergeInto([], ls), idx)
  {
    var n := |ls| - 1;
    var init := ls[..n];
    var m := MergeInto([], init);
    assert MergeInto([], ls) == m;
    var x :| x in init && x.name == ls[n].name;
    var k :| 0 <= k < |init| && init[k] == x;
    assert ls[k] == init[k];
    assert !FirstOfName(ls, n);
    forall i | 0 <= i < |idx|
      ensures FirstOfName(ls, idx[i]) && m[i] == ls[idx[i]]
    {
      FirstOfNameInPrefix(ls, idx[i]);
      assert ls[idx[i]] == init[idx[i]];
    }
    forall j | 0 <= j < |ls| && FirstOfName(ls, j)
      ensures j in idx
    {
      FirstOfNameInPrefix(ls, j);
    }
  }

  /** A name missing from the licenses before the last one differs from each of their names. */
  lemma NewNameDiffers(ls: seq<License>)
    requires |ls| > 0 && ls[|ls| - 1].name !in Names(ls[..|ls| - 1])
    ensures forall k :: 0 <= k < |ls| - 1 ==> ls[k].name != ls[|ls| - 1].name
  {
    var n := |ls| - 1;
    forall k | 0 <= k < n
      ensures ls[k].name != ls[n].name
    {
      assert ls[k] == ls[..n][k] && ls[..n][k] in ls[..n];
    }
  }

  lemma AppendFirstOccurrence(ls: seq<License>, m: seq<License>, idx: seq<nat>)
    requires |ls| > 0 && SelectsFirstOccurrences(ls[..|ls| - 1], m, idx)
    requires forall k :: 0 <= k < |ls| - 1 ==> ls[k].name != ls[|ls| - 1].name
    ensures SelectsFirstOccurrences(ls, m + [ls[|ls| - 1]], idx + [|ls| - 1])
  {
    var n := |ls| - 1;
    var init := ls[..n];
    var r := m + [ls[n]];
    var idx2 := idx + [n];
    assert FirstOfName(ls, n);
    forall i | 0 <= i < |idx2|
      ensures FirstOfName(ls, idx2[i]) && r[i] == ls[idx2[i]]
    {
      if i < |idx| {
        FirstOfNameInPrefix(ls, idx[i]);
        assert ls[idx[i]] == init[idx[i]];
      }
    }
    forall i, j | 0 <= i < j < |idx2|
      ensures idx2[i] < idx2[j]
    {
    }
    forall j | 0 <= j < |ls| && FirstOfName(ls, j)
      ensures j in idx2
    {
      if j < n {
        FirstOfNameInPrefix(ls, j);
      }
    }
  }

  /** The first package with key `k`, if any. */
  function FirstWith(ps: seq<Package>, k: Key): (r: Option<Package>)
    ensures r.Some? ==> r.value in ps && r.value.Key() == k
    ensures r.None? <==> forall p :: p in ps ==> p.Key() != k
    decreases |ps|
  {
    if ps == [] then None
    else
      var f := FirstWith(ps[..|ps| - 1], k);
      if f.Some? then f
      else if ps[|ps| - 1].Key() == k then Some(ps[|ps| - 1])
      else None
  }

  /** The keys of the packages, each once, in the order they are first seen. */
  function KeysInOrder(ps: seq<Package>): (ks: seq<Key>)
    ensures |ks| <= |ps|
    ensures forall k :: k in ks <==> FirstWith(ps, k).Some?
    ensures forall a, b :: 0 <= a < b < |ks| ==> ks[a] != ks[b]
    decreases |ps|
  {
    if ps == [] then []
    else
      var ks := KeysInOrder(ps[..|ps| - 1]);
      if ps[|ps| - 1].Key() in ks then ks else ks + [ps[|ps| - 1].Key()]
  }

  /** The merged licenses of the packages with key `k`, in package order. */
  function GroupLicenses(ps: seq<Package>, k: Key): seq<License>
    decreases |ps|
  {
    if ps == [] then []
    else
      var g := GroupLicenses(ps[..|ps| - 1], k);
      if ps[|ps| - 1].Key() == k then MergeInto(g, ps[|ps| - 1].licenses) else g
  }

  /**
   * The merged package of key `k`: name, version, purl and source of the
   * first package with that key, and the group's merged licenses.
   */
  function MergedPackage(ps: seq<Package>, k: Key): Package
    requires FirstWith(ps, k).Some?
  {
    var f := FirstWith(ps, k).value;
    Package(f.name, f.version, f.purl, GroupLicenses(ps, k), f.source)
  }

  /** `PackageDeduplicator.deduplicate`, as a function of the input list. */
  function DedupSpec(ps: seq<Package>): seq<Package> {
    var ks := KeysInOrder(ps);
    seq(|ks|, i requires 0 <= i < |ks| => MergedPackage(ps, ks[i]))
  }

  /** How one more package changes the merged package of its own key. */
  lemma MergedStepSame(ps: seq<Package>, p: Package)
    requires FirstWith(ps, p.Key()).Some?
    ensures FirstWith(ps + [p], p.Key()).Some?
    ensures MergedPackage(ps + [p], p.Key())
         == MergedPackage(ps, p.Key()).(licenses := MergeInto(GroupLicenses(ps, p.Key()), p.licenses))
  {
    assert (ps + [p])[..|ps|] == ps;
  }

  /** How the first package of a key starts its merged package. */
  lemma MergedStepNew(ps: seq<Package>, p: Package)
    requires FirstWith(ps, p.Key()).None?
    ensures FirstWith(ps + [p], p.Key()) == Some(p)
    ensures MergedPackage(ps + [p], p.Key())
         == Package(p.name, p.version, p.purl, MergeInto([], p.licenses), p.source)
  {
    assert (ps + [p])[..|ps|] == ps;
    assert GroupLicenses(ps, p.Key()) == [] by {
      NoGroupNoLicenses(ps, p.Key());
    }
  }

  lemma {:induction false} NoGroupNoLicenses(ps: seq<Package>, k: Key)
    requires FirstWith(ps, k).None?
    ensures GroupLicenses(ps, k) == []
    decreases |ps|
  {
    if ps != [] {
      NoGroupNoLicenses(ps[..|ps| - 1], k);
    }
  }

  /** One more package leaves the merged packages of other keys alone. */
  lemma MergedStepOther(ps: seq<Package>, p: Package, k: Key)
    requires k != p.Key() && FirstWith(ps, k).Some?
    ensures FirstWith(ps + [p], k).Some?
    ensures MergedPackage(ps + [p], k) == MergedPackage(ps, k)
  {
    assert (ps + [p])[..|ps|] == ps;
  }

  lemma KeysStep(ps: seq<Package>, p: Package)
    ensures KeysInOrder(ps + [p]) == if p.Key() in KeysInOrder(ps) then KeysInOrder(ps) else KeysInOrder(ps) + [p.Key()]
  {
    assert (ps + [p])[..|ps|] == ps;
  }

  /**
   * The inner loop of `deduplicate`: the licenses of `ls` whose name is
   * not yet among `names`, the names of `acc`, appended to `acc`, the set
   * of names growing with them.
   */
  method MergeLicenses(acc: seq<License>, names: set<string>, ls: seq<License>)
    returns (merged: seq<License>, mergedNames: set<string>)
    requires names == Names(acc)
    ensures merged == MergeInto(acc, ls)
    ensures mergedNames == Names(merged)
  {
    merged, mergedNames := acc, names;
    var j := 0;
    while j < |ls|
      invariant 0 <= j <= |ls|
      invariant merged == MergeInto(acc, ls[..j])
      invariant mergedNames == Names(merged)
    {
      var license := ls[j];
      assert ls[..j + 1][..j] == ls[..j];
      if license.name !in mergedNames {
        merged := merged + [license];
        mergedNames := mergedNames + {license.name};
      }
      j := j + 1;
    }
    assert ls[..j] == ls;
  }

  /**
   * `PackageDeduplicator.deduplicate`: a dictionary from key to merged
   * package, filled in input order, each merged license list grown while a
   * set of its names is kept beside it; the dictionary's values in
   * insertion order are the result.
   */
  method Deduplicate(packages: seq<Package>) returns (result: seq<Package>)
    ensures result == DedupSpec(packages)
  {
    var merged: map<Key, Package> := map[];
    var order: seq<Key> := [];
    var i := 0;
    while i < |packages|
      invariant 0 <= i <= |packages|
      invariant DictionaryOf(packages[..i], merged, order)
    {
      merged, order := AddPackage(packages, i, merged, order);
      i := i + 1;
    }
    assert packages[..i] == packages;
    assert DictionaryOf(packages, merged, order);
    result := ValuesInOrder(merged, order);
    DedupFromMap(packages, merged, order, result);
  }

  /**
   * The body of the loop of `deduplicate`: the `i`th package gets an entry
   * under its key if it has none yet, and its licenses are merged into the
   * entry's list, a set of the list's names kept beside it.
   */
  method AddPackage(packages: seq<Package>, i: nat, merged: map<Key, Package>, order: seq<Key>)
    returns (merged': map<Key, Package>, order': seq<Key>)
    requires i < |packages| && DictionaryOf(packages[..i], merged, order)
    ensures DictionaryOf(packages[..i + 1], merged', order')
  {
    var package := packages[i];
    var key := package.Key();
    var entry := if key in merged then merged[key]
                 else Package(package.name, package.version, package.purl, [], package.source);
    order' := if key in merged then order else order + [key];
    var licenses, _ := MergeLicenses(entry.licenses, Names(entry.licenses), package.licenses);
    merged' := merged[key := entry.(licenses := licenses)];
    DedupStep(packages[..i], package, merged, order, licenses, merged', order');
    assert packages[..i + 1] == packages[..i] + [package];
  }

  /**
   * The dictionary of `deduplicate` after reading `ps`: its keys, in
   * insertion order, are the keys of `ps` in first-seen order, and each
   * maps to the merged package of its key.
   */
  ghost predicate DictionaryOf(ps: seq<Package>, merged: map<Key, Package>, order: seq<Key>) {
    && order == KeysInOrder(ps)
    && (forall k :: k in merged <==> k in order)
    && (forall k :: k in merged ==> merged[k] == MergedPackage(ps, k))
  }

  /** One iteration of `deduplicate` keeps the dictionary and its key order in step with the input read so far. */
  lemma DedupStep(before: seq<Package>, p: Package, previous: map<Key, Package>, order: seq<Key>,
                  licenses: seq<License>, merged: map<Key, Package>, newOrder: seq<Key>)
    requires DictionaryOf(before, previous, order)
    requires licenses == MergeInto(if p.Key() in previous then previous[p.Key()].licenses else [], p.licenses)
    requires merged == previous[p.Key() := (if p.Key() in previous then previous[p.Key()]
      else Package(p.name, p.version, p.purl, [], p.source)).(licenses := licenses)]
    requires newOrder == if p.Key() in previous then order else order + [p.Key()]
    ensures DictionaryOf(before + [p], merged, newOrder)
  {
    KeysStep(before, p);
    assert newOrder == KeysInOrder(before + [p]);
    assert forall k :: k in merged <==> k in newOrder;
    MergedMapStep(before, p, previous, licenses);
  }

  /** The dictionary after one more package holds the merged packages of the longer list. */
  lemma MergedMapStep(before: seq<Package>, p: Package, previous: map<Key, Package>, licenses: seq<License>)
    requires forall k :: k in previous <==> FirstWith(before, k).Some?
    requires forall k :: k in previous ==> previous[k] == MergedPackage(before, k)
    requires licenses == MergeInto(if p.Key() in previous then previous[p.Key()].licenses else [], p.licenses)
    ensures var entry := if p.Key() in previous then previous[p.Key()]
                         else Package(p.name, p.version, p.purl, [], p.source);
      var m := previous[p.Key() := entry.(licenses := licenses)];
      forall k :: k in m ==> FirstWith(before + [p], k).Some? && m[k] == MergedPackage(before + [p], k)
  {
    var key := p.Key();
    if key in previous {
      MergedStepSame(before, p);
    } else {
      MergedStepNew(before, p);
    }
    forall k | k in previous && k != key
      ensures FirstWith(before + [p], k).Some? && previous[k] == MergedPackage(before + [p], k)
    {
      MergedStepOther(before, p, k);
    }
  }

  /** The values of a map holding every merged package, in key order, are the result. */
  lemma DedupFromMap(ps: seq<Package>, merged: map<Key, Package>, order: seq<Key>, result: seq<Package>)
    requires order == KeysInOrder(ps)
    requires forall k :: k in merged <==> k in order
    requires forall k :: k in merged ==> merged[k] == MergedPackage(ps, k)
    requires |result| == |order| && forall t :: 0 <= t < |order| ==> result[t] == merged[order[t]]
    ensures result == DedupSpec(ps)
  {
    assert |result| == |DedupSpec(ps)|;
    forall t | 0 <= t < |result|
      ensures result[t] == DedupSpec(ps)[t]
    {
    }
  }

  /** `list(merged_packages.values())`: the values in key insertion order. */
  method ValuesInOrder(merged: map<Key, Package>, order: seq<Key>) returns (result: seq<Package>)
    requires forall k :: k in order ==> k in merged
    ensures |result| == |order|
    ensures forall t :: 0 <= t < |order| ==> result[t] == merged[order[t]]
  {
    result := [];
    var m := 0;
    while m < |order|
      invariant 0 <= m <= |order|
      invariant |result| == m
      invariant forall t :: 0 <= t < m ==> result[t] == merged[order[t]]
    {
      result := result + [merged[order[m]]];
      m := m + 1;
    }
  }

  // ---------------------------------------------------------------------
  // What the merged list promises
  // ---------------------------------------------------------------------

  /** The index of the first package with key `k`, or `|ps|` when there is none. */
  function FirstIndex(ps: seq<Package>, k: Key): (r: nat)
    ensures r <= |ps|
    ensures r < |ps| ==> ps[r].Key() == k
    ensures forall j :: 0 <= j < r ==> ps[j].Key() != k
    decreases |ps|
  {
    if ps == [] then 0
    else
      var f := FirstIndex(ps[..|ps| - 1], k);
      if f < |ps| - 1 then f
      else if ps[|ps| - 1].Key() == k then |ps| - 1
      else |ps|
  }

  lemma {:induction false} FirstWithAtFirstIndex(ps: seq<Package>, k: Key)
    ensures FirstWith(ps, k).Some? <==> FirstIndex(ps, k) < |ps|
    ensures FirstWith(ps, k).Some? ==> FirstWith(ps, k).value == ps[FirstIndex(ps, k)]
    decreases |ps|
  {
    if ps != [] {
      var init := ps[..|ps| - 1];
      FirstWithAtFirstIndex(init, k);
    }
  }

  /** A key seen before keeps its first index; a new key is first seen at the end. */
  lemma FirstIndexStep(init: seq<Package>, p: Package, k: Key)
    ensures k in KeysInOrder(init) ==> FirstIndex(init + [p], k) == FirstIndex(init, k) < |init|
    ensures k !in KeysInOrder(init) && k == p.Key() ==> FirstIndex(init + [p], k) == |init|
  {
    FirstWithAtFirstIndex(init, k);
    assert (init + [p])[..|init|] == init;
  }

  /** The keys come in the order of their first occurrence. */
  lemma {:induction false} KeysInFirstSeenOrder(ps: seq<Package>)
    ensures var ks := KeysInOrder(ps);
      forall a, b :: 0 <= a < b < |ks| ==> FirstIndex(ps, ks[a]) < FirstIndex(ps, ks[b])
    decreases |ps|
  {
    if ps != [] {
      var init := ps[..|ps| - 1];
      var last := ps[|ps| - 1];
      assert ps == init + [last];
      var ks0 := KeysInOrder(init);
      var ks := KeysInOrder(ps);
      KeysInFirstSeenOrder(init);
      KeysStep(init, last);
      forall a, b | 0 <= a < b < |ks|
        ensures FirstIndex(ps, ks[a]) < FirstIndex(ps, ks[b])
      {
        FirstIndexStep(init, last, ks[a]);
        FirstIndexStep(init, last, ks[b]);
        assert ks[a] == ks0[a];
        if b < |ks0| {
          assert ks[b] == ks0[b];
        }
      }
    }
  }

  /** Deduplication keeps one package per key and never lengthens the list. */
  lemma DedupKeysDistinct(ps: seq<Package>)
    ensures var out := DedupSpec(ps);
      && |out| <= |ps|
      && forall a, b :: 0 <= a < b < |out| ==> out[a].Key() != out[b].Key()
  {
    var ks := KeysInOrder(ps);
    var out := DedupSpec(ps);
    assert forall t :: 0 <= t < |out| ==> out[t].Key() == ks[t];
  }

  /** Every key of the input has its package in the output. */
  lemma DedupKeepsEveryKey(ps: seq<Package>)
    ensures var out := DedupSpec(ps);
      forall p :: p in ps ==> exists t :: 0 <= t < |out| && out[t].Key() == p.Key()
  {
    var ks := KeysInOrder(ps);
    var out := DedupSpec(ps);
    forall p | p in ps
      ensures exists t :: 0 <= t < |out| && out[t].Key() == p.Key()
    {
      assert FirstWith(ps, p.Key()).Some?;
      var t :| 0 <= t < |ks| && ks[t] == p.Key();
      assert out[t].Key() == p.Key();
    }
  }

  /** The output comes in the order of the keys' first occurrences. */
  lemma DedupFirstSeenOrder(ps: seq<Package>)
    ensures var out := DedupSpec(ps);
      forall a, b :: 0 <= a < b < |out| ==> FirstIndex(ps, out[a].Key()) < FirstIndex(ps, out[b].Key())
  {
    DedupKeysAre(ps);
    KeysInFirstSeenOrder(ps);
  }

  /** The output holds one package per key of `KeysInOrder`, in that order. */
  lemma DedupKeysAre(ps: seq<Package>)
    ensures |DedupSpec(ps)| == |KeysInOrder(ps)|
    ensures forall t :: 0 <= t < |DedupSpec(ps)| ==> DedupSpec(ps)[t].Key() == KeysInOrder(ps)[t]
  {
  }

  /** Each merged package takes name, version, purl and source from the first package of its group. */
  lemma DedupTakesFirstMember(ps: seq<Package>)
    ensures var out := DedupSpec(ps);
      forall t :: 0 <= t < |out| ==>
        var first := FirstIndex(ps, out[t].Key());
        && first < |ps|
        && out[t].name == ps[first].name && out[t].version == ps[first].version
        && out[t].purl == ps[first].purl && out[t].source == ps[first].source
  {
    var ks := KeysInOrder(ps);
    var out := DedupSpec(ps);
    forall t | 0 <= t < |out|
      ensures var first := FirstIndex(ps, out[t].Key());
        && first < |ps|
        && out[t].name == ps[first].name && out[t].version == ps[first].version
        && out[t].purl == ps[first].purl && out[t].source == ps[first].source
    {
      assert out[t].Key() == ks[t];
      FirstWithAtFirstIndex(ps, ks[t]);
    }
  }

  /** The licenses of the packages with key `k`, one list after the other. */
  function GroupAll(ps: seq<Package>, k: Key): seq<License>
    decreases |ps|
  {
    if ps == [] then []
    else GroupAll(ps[..|ps| - 1], k) + (if ps[|ps| - 1].Key() == k then ps[|ps| - 1].licenses else [])
  }

  lemma {:induction false} MergeIntoAppend(acc: seq<License>, a: seq<License>, b: seq<License>)
    ensures MergeInto(MergeInto(acc, a), b) == MergeInto(acc, a + b)
    decreases |b|
  {
    if b == [] {
      assert a + b == a;
    } else {
      var b' := b[..|b| - 1];
      MergeIntoAppend(acc, a, b');
      assert (a + b)[..|a + b| - 1] == a + b';
    }
  }

  lemma {:induction false} GroupLicensesMergeAll(ps: seq<Package>, k: Key)
    ensures GroupLicenses(ps, k) == MergeInto([], GroupAll(ps, k))
    decreases |ps|
  {
    if ps != [] {
      var init := ps[..|ps| - 1];
      GroupLicensesMergeAll(init, k);
      var last := ps[|ps| - 1];
      MergeIntoAppend([], GroupAll(init, k), if last.Key() == k then last.licenses else []);
    }
  }

  /**
   * The licenses of a merged package are the licenses of its group, one
   * package after the other, each name kept at its first occurrence: the
   * names are distinct, and they are exactly the names of the group.
   */
  lemma DedupLicenses(ps: seq<Package>)
    ensures var out := DedupSpec(ps);
      forall t :: 0 <= t < |out| ==>
        && out[t].licenses == MergeInto([], GroupAll(ps, out[t].Key()))
        && DistinctNames(out[t].licenses)
        && Names(out[t].licenses) == Names(GroupAll(ps, out[t].Key()))
        && (forall l :: l in out[t].licenses ==> l in GroupAll(ps, out[t].Key()))
        && exists idx :: SelectsFirstOccurrences(GroupAll(ps, out[t].Key()), out[t].licenses, idx)
  {
    var ks := KeysInOrder(ps);
    var out := DedupSpec(ps);
    forall t | 0 <= t < |out|
      ensures var all := GroupAll(ps, out[t].Key());
        && out[t].licenses == MergeInto([], all)
        && DistinctNames(out[t].licenses)
        && Names(out[t].licenses) == Names(all)
        && (forall l :: l in out[t].licenses ==> l in all)
        && exists idx :: SelectsFirstOccurrences(all, out[t].licenses, idx)
    {
      assert out[t].Key() == ks[t];
      var all := GroupAll(ps, ks[t]);
      GroupLicensesMergeAll(ps, ks[t]);
      MergeIntoDistinct([], all);
      MergeIntoNames([], all);
      MergeIntoExtends([], all);
      var idx := MergeKeepsFirstOccurrences(all);
      assert Names([]) == {};
    }
  }
}

=== FILE: domain.dfy ===
/**
 * `Domain`: the two records every stage of the license engine passes around,
 * `License` and `Package`.
 */
module Domain {
  import opened Wrappers
  import opened LicenseMapper

  /** A license as the engine holds it: a display name and perhaps a URL. */
  datatype License = License(name: string, url: Option<string>)

  /** A URL that Python treats as false: absent or empty. */
  predicate IsBlankUrl(url: Option<string>) {
    url.None? || url.value == ""
  }

  /**
   * `License(name, url)` followed by `__post_init__`: a blank URL is
   * replaced by the canonical URL of the name, which may itself be absent.
   */
  function NewLicense(name: string, url: Option<string>): (l: License)
    ensures l.name == name
    ensures !IsBlankUrl(url) ==> l.url == url
    ensures l.url != Some("")
    ensures l.url.None? <==> IsBlankUrl(url) && GetUrl(name).None?
    ensures IsBlankUrl(url) && GetUrl(name).Some? ==> l.url == Some(GetUrl(name).value.Text())
  {
    if IsBlankUrl(url) then License(name, UrlText(GetUrl(name))) else License(name, url)
  }

  /** The two values `license_source` ever takes. */
  datatype Source = Original | Enriched
  {
    function Label(): string {
      match this
      case Original => "Original"
      case Enriched => "Maven/GitHub/Heuristic"
    }
  }

  /** A package of the bill of materials; `Key` is `unique_key`. */
  datatype Package = Package(name: string, version: string, purl: string, licenses: seq<License>, source: Source)
  {
    predicate HasLicenses() {
      |licenses| > 0
    }

    function Key(): (string, string) {
      (name, version)
    }
  }
}

=== FILE: enricher.dfy ===
/**
 * `Enricher`: the packages without licenses looked up, first in Maven
 * Central by the coordinates in their purl, then by the name heuristics,
 * and updated in place when something is found.
 */
module Enricher {
  import opened Wrappers
  import opened Strings
  import opened Domain
  import opened MavenCentral
  import opened PackageHeuristics

  const MavenPrefix: string := "pkg:maven/"

  /**
   * `_extract_maven_coordinates`: after the `pkg:maven/` prefix, the text
   * is split at its first '@' into coordinates and version, and the
   * coordinates at their first '/' into group and artifact; a purl with
   * another prefix, or without either separator, has no coordinates.
   */
  function ExtractMavenCoordinates(purl: string): (r: Option<Triple>)
    ensures r.Some? ==> purl == MavenPrefix + r.value.group + "/" + r.value.artifact + "@" + r.value.version
    ensures r.Some? ==> '/' !in r.value.group && '@' !in r.value.group && '@' !in r.value.artifact
  {
    if !StartsWith(purl, MavenPrefix) then None
    else
      var path := purl[|MavenPrefix|..];
      match FindChar(path, '@', 0)
      case None => None
      case Some(i) =>
        var coordinates := path[..i];
        match FindChar(coordinates, '/', 0)
        case None => None
        case Some(j) =>
          CoordinatesSplit(purl, i, j);
          Some(Triple(coordinates[..j], coordinates[j + 1..], path[i + 1..]))
  }

  /** The pieces a purl is cut into at its first '@' and the first '/' before it rebuild it. */
  lemma CoordinatesSplit(purl: string, i: nat, j: nat)
    requires StartsWith(purl, MavenPrefix)
    requires i < |purl| - |MavenPrefix| && purl[|MavenPrefix| + i] == '@'
    requires forall k :: 0 <= k < i ==> purl[|MavenPrefix|..][k] != '@'
    requires j < i && purl[|MavenPrefix| + j] == '/'
    requires forall k :: 0 <= k < j ==> purl[|MavenPrefix|..][..i][k] != '/'
    ensures var path := purl[|MavenPrefix|..]; var coordinates := path[..i];
      && purl == MavenPrefix + coordinates[..j] + "/" + coordinates[j + 1..] + "@" + path[i + 1..]
      && '/' !in coordinates[..j] && '@' !in coordinates[..j] && '@' !in coordinates[j + 1..]
  {
    var path := purl[|MavenPrefix|..];
    var coordinates := path[..i];
    assert purl == MavenPrefix + path;
    assert path == coordinates + "@" + path[i + 1..];
    assert coordinates == coordinates[..j] + "/" + coordinates[j + 1..];
    assert '@' !in coordinates;
  }

  /** A purl has coordinates exactly when it has the prefix, an '@' after it, and a '/' before that '@'. */
  lemma CoordinatesWhen(purl: string)
    ensures ExtractMavenCoordinates(purl).Some? <==>
      && StartsWith(purl, MavenPrefix)
      && '@' in purl[|MavenPrefix|..]
      && '/' in Before(purl[|MavenPrefix|..], '@')
  {
    if StartsWith(purl, MavenPrefix) {
      var path := purl[|MavenPrefix|..];
      if '@' in path {
        var i :| FindChar(path, '@', 0) == Some(i);
        assert Before(path, '@') == path[..i];
      }
    }
  }

  /** The coordinates written into a purl are read back. */
  lemma CoordinatesRoundTrip(group: string, artifact: string, version: string)
    requires '/' !in group && '@' !in group && '@' !in artifact
    ensures ExtractMavenCoordinates(MavenPrefix + group + "/" + artifact + "@" + version)
         == Some(Triple(group, artifact, version))
  {
    var purl := MavenPrefix + group + "/" + artifact + "@" + version;
    var path := group + "/" + artifact + "@" + version;
    assert purl[..|MavenPrefix|] == MavenPrefix;
    assert purl[|MavenPrefix|..] == path;
    var i := |group| + 1 + |artifact|;
    assert path[i] == '@';
    assert forall k :: 0 <= k < i ==> path[k] != '@' by {
      forall k | 0 <= k < i
        ensures path[k] != '@'
      {
        if k < |group| {
          assert path[k] == group[k];
        } else if k > |group| {
          assert path[k] == artifact[k - |group| - 1];
        }
      }
    }
    assert FindChar(path, '@', 0) == Some(i);
    var coordinates := path[..i];
    assert coordinates == group + "/" + artifact;
    assert coordinates[|group|] == '/';
    assert forall k :: 0 <= k < |group| ==> coordinates[k] != '/' by {
      forall k | 0 <= k < |group|
        ensures coordinates[k] != '/'
      {
        assert coordinates[k] == group[k];
      }
    }
    assert FindChar(coordinates, '/', 0) == Some(|group|);
    assert coordinates[..|group|] == group;
    assert coordinates[|group| + 1..] == artifact;
    assert path[i + 1..] == version;
  }

  /**
   * `_lookup_package_licenses`: the Maven lookup with the default depth
   * when the purl has coordinates and it finds something; the heuristics
   * otherwise.
   */
  function PackageLookup(p: Package, fetch: Fetch, api: GitHubApi): seq<License> {
    match ExtractMavenCoordinates(p.purl)
    case Some(t) =>
      var licenses := Lookup(fetch, api, t, MaxDepth);
      if licenses != [] then licenses else HeuristicLicenses(p)
    case None => HeuristicLicenses(p)
  }

  /** `_lookup_package_licenses`, calling the heuristics' loop. */
  method LookupPackageLicenses(p: Package, fetch: Fetch, api: GitHubApi) returns (licenses: seq<License>)
    ensures licenses == PackageLookup(p, fetch, api)
  {
    var coordinates := ExtractMavenCoordinates(p.purl);
    if coordinates.Some? {
      licenses := Lookup(fetch, api, coordinates.value, MaxDepth);
      if licenses != [] {
        return;
      }
    }
    licenses := ApplyHeuristics(p);
  }

  /**
   * The heuristics are consulted only when the purl has no coordinates or
   * the Maven lookup finds nothing; otherwise the Maven answer stands.
   */
  lemma MavenBeforeHeuristics(p: Package, fetch: Fetch, api: GitHubApi)
    ensures var c := ExtractMavenCoordinates(p.purl);
      PackageLookup(p, fetch, api) ==
        if c.Some? && Lookup(fetch, api, c.value, MaxDepth) != [] then Lookup(fetch, api, c.value, MaxDepth)
        else HeuristicLicenses(p)
  {
  }

  /** A package after enrichment: untouched when it has licenses or nothing is found. */
  function EnrichOne(p: Package, fetch: Fetch, api: GitHubApi): (r: Package)
    ensures r.name == p.name && r.version == p.version && r.purl == p.purl
    ensures p.HasLicenses() ==> r == p
    ensures r != p ==> r.licenses != [] && r.source == Enriched
  {
    if p.HasLicenses() then p
    else
      var licenses := PackageLookup(p, fetch, api);
      if licenses != [] then p.(licenses := licenses, source := Enriched) else p
  }

  /** `enrich_packages` as a function of the list. */
  function EnrichAll(ps: seq<Package>, fetch: Fetch, api: GitHubApi): (r: seq<Package>)
    ensures |r| == |ps|
    ensures forall i :: 0 <= i < |ps| && ps[i].HasLicenses() ==> r[i] == ps[i]
  {
    seq(|ps|, i requires 0 <= i < |ps| => EnrichOne(ps[i], fetch, api))
  }

  /** The positions of the packages without licenses, in order. */
  function Unlicensed(ps: seq<Package>): (r: seq<nat>)
    ensures forall k :: 0 <= k < |r| ==> r[k] < |ps| && !ps[r[k]].HasLicenses()
    ensures forall i :: 0 <= i < |ps| && !ps[i].HasLicenses() ==> i in r
    ensures forall a, b :: 0 <= a < b < |r| ==> r[a] < r[b]
    decreases |ps|
  {
    if ps == [] then []
    else
      var r := Unlicensed(ps[..|ps| - 1]);
      if ps[|ps| - 1].HasLicenses() then r else r + [|ps| - 1]
  }

  /** `[pkg for pkg in packages if not pkg.has_licenses]`, as positions. */
  method CollectUnlicensed(packages: array<Package>) returns (pending: seq<nat>)
    ensures pending == Unlicensed(packages[..])
  {
    pending := [];
    var i := 0;
    while i < packages.Length
      invariant 0 <= i <= packages.Length
      invariant pending == Unlicensed(packages[..i])
    {
      assert packages[..i + 1][..i] == packages[..i];
      if !packages[i].HasLicenses() {
        pending := pending + [i];
      }
      i := i + 1;
    }
    assert packages[..i] == packages[..];
  }

  /** Where the `k`-th pending position lies, or the end when all are done. */
  function NextPending(pending: seq<nat>, k: nat, length: nat): nat {
    if k < |pending| then pending[k] else length
  }

  /** The positions strictly between two consecutive pending ones hold licensed packages. */
  lemma BetweenPendingIsLicensed(ps: seq<Package>, k: nat, j: nat)
    requires k < |Unlicensed(ps)|
    requires Unlicensed(ps)[k] < j < NextPending(Unlicensed(ps), k + 1, |ps|)
    ensures j < |ps| && ps[j].HasLicenses()
  {
    var pending := Unlicensed(ps);
    if k + 1 < |pending| {
      assert pending[k + 1] < |ps|;
    }
  }

  /** The positions before the first pending one hold licensed packages. */
  lemma BeforePendingIsLicensed(ps: seq<Package>, j: nat)
    requires j < NextPending(Unlicensed(ps), 0, |ps|)
    ensures j < |ps| && ps[j].HasLicenses()
  {
    var pending := Unlicensed(ps);
    if pending != [] {
      assert pending[0] < |ps|;
    }
  }

  /** The list with the packages before position `bound` enriched. */
  function EnrichedBefore(ps: seq<Package>, bound: nat, fetch: Fetch, api: GitHubApi): (r: seq<Package>)
    ensures |r| == |ps|
  {
    seq(|ps|, j requires 0 <= j < |ps| => if j < bound then EnrichOne(ps[j], fetch, api) else ps[j])
  }

  /**
   * Enriching the package at `index`, when the packages up to the next
   * pending position `bound` have licenses, moves the enriched prefix to
   * `bound`.
   */
  lemma EnrichedBeforeStep(ps: seq<Package>, index: nat, bound: nat, fetch: Fetch, api: GitHubApi)
    requires index < bound <= |ps|
    requires forall j :: index < j < bound ==> ps[j].HasLicenses()
    ensures EnrichedBefore(ps, index, fetch, api)[index := EnrichOne(ps[index], fetch, api)]
         == EnrichedBefore(ps, bound, fetch, api)
  {
  }

  /** Before the first pending position there is nothing to enrich. */
  lemma EnrichedBeforeStart(ps: seq<Package>, bound: nat, fetch: Fetch, api: GitHubApi)
    requires bound <= |ps|
    requires forall j :: 0 <= j < bound ==> ps[j].HasLicenses()
    ensures EnrichedBefore(ps, bound, fetch, api) == ps
  {
  }

  /** Before the first pending position every package has licenses, so nothing is enriched yet. */
  lemma EnrichStart(ps: seq<Package>, fetch: Fetch, api: GitHubApi)
    ensures EnrichedBefore(ps, NextPending(Unlicensed(ps), 0, |ps|), fetch, api) == ps
  {
    var bound := NextPending(Unlicensed(ps), 0, |ps|);
    PrefixBeforePendingIsLicensed(ps, bound);
    EnrichedBeforeStart(ps, bound, fetch, api);
  }

  /** Every package before the first pending position has licenses. */
  lemma PrefixBeforePendingIsLicensed(ps: seq<Package>, bound: nat)
    requires bound == NextPending(Unlicensed(ps), 0, |ps|)
    ensures bound <= |ps|
    ensures forall j :: 0 <= j < bound ==> ps[j].HasLicenses()
  {
    forall j | 0 <= j < bound
      ensures ps[j].HasLicenses()
    {
      BeforePendingIsLicensed(ps, j);
    }
    if Unlicensed(ps) != [] {
      assert Unlicensed(ps)[0] < |ps|;
    }
  }

  /**
   * One turn of the loop: with the packages before the `k`-th pending
   * position enriched, updating that package with its lookup result (when
   * non-empty) enriches the packages before the next pending position.
   */
  lemma EnrichLoopStep(ps: seq<Package>, k: nat, before: seq<Package>, licenses: seq<License>,
                       fetch: Fetch, api: GitHubApi)
    requires k < |Unlicensed(ps)|
    requires before == EnrichedBefore(ps, NextPending(Unlicensed(ps), k, |ps|), fetch, api)
    requires licenses == PackageLookup(ps[Unlicensed(ps)[k]], fetch, api)
    ensures var index := Unlicensed(ps)[k];
      && index < |before| && before[index] == ps[index]
      && (if licenses != [] then before[index := before[index].(licenses := licenses, source := Enriched)] else before)
         == EnrichedBefore(ps, NextPending(Unlicensed(ps), k + 1, |ps|), fetch, api)
  {
    var pending := Unlicensed(ps);
    var index := pending[k];
    var bound := NextPending(pending, k + 1, |ps|);
    assert !ps[index].HasLicenses();
    forall j | index < j < bound
      ensures ps[j].HasLicenses()
    {
      BetweenPendingIsLicensed(ps, k, j);
    }
    EnrichedBeforeStep(ps, index, bound, fetch, api);
  }

  /** With every position done, the list is the enriched list. */
  lemma EnrichEnd(ps: seq<Package>, fetch: Fetch, api: GitHubApi)
    ensures EnrichedBefore(ps, |ps|, fetch, api) == EnrichAll(ps, fetch, api)
  {
  }

  /**
   * `enrich_packages`: the packages without licenses are gathered first
   * (the same objects as in the list); each is looked up in turn and, when
   * something is found, given the licenses and the enriched source in
   * place. The packages before the next pending position are done.
   */
  method EnrichPackages(packages: array<Package>, fetch: Fetch, api: GitHubApi)
    modifies packages
    ensures packages[..] == EnrichAll(old(packages[..]), fetch, api)
  {
    ghost var original := packages[..];
    var pending := CollectUnlicensed(packages);
    EnrichStart(original, fetch, api);
    if pending == [] {
      EnrichEnd(original, fetch, api);
      return;
    }
    var k := 0;
    while k < |pending|
      invariant 0 <= k <= |pending|
      invariant packages[..] == EnrichedBefore(original, NextPending(pending, k, packages.Length), fetch, api)
    {
      var index := pending[k];
      ghost var before := packages[..];
      var licenses := LookupPackageLicenses(packages[index], fetch, api);
      EnrichLoopStep(original, k, before, licenses, fetch, api);
      if licenses != [] {
        packages[index] := packages[index].(licenses := licenses, source := Enriched);
        assert packages[..] == before[index := before[index].(licenses := licenses, source := Enriched)];
      }
      k := k + 1;
    }
    EnrichEnd(original, fetch, api);
  }

  /**
   * Enrichment keeps the length and the order, leaves packages with
   * licenses alone, never changes name, version or purl, and changes a
   * package only when its lookup finds licenses, which it then takes along
   * with the enriched source.
   */
  lemma EnrichmentChangesOnlyUnlicensed(ps: seq<Package>, fetch: Fetch, api: GitHubApi)
    ensures var r := EnrichAll(ps, fetch, api);
      && |r| == |ps|
      && forall i :: 0 <= i < |ps| ==>
        && r[i].name == ps[i].name && r[i].version == ps[i].version && r[i].purl == ps[i].purl
        && (ps[i].HasLicenses() ==> r[i] == ps[i])
        && (r[i] != ps[i] ==> r[i].licenses == PackageLookup(ps[i], fetch, api) != [] && r[i].source == Enriched)
        && (r[i].HasLicenses() <==> ps[i].HasLicenses() || PackageLookup(ps[i], fetch, api) != [])
  {
  }
}

=== FILE: license_mapper.dfy ===
/**
 * `LicenseMapper`: maps a free-text license name to the canonical URL of the
 * license, by an exact table and then by an ordered list of keyword rules.
 */
module LicenseMapper {
  import opened Wrappers
  import opened Strings

  /** The URLs the table holds; `Text` gives each one's exact string. */
  datatype KnownUrl =
    | Apache2 | Mit | Bsd3 | Gpl2 | Gpl3 | Gpl2Text | Lgpl3 | Epl2 | Epl1 | Mpl2 | Mpl11
    | Cddl | Unicode3 | BouncyCastle | Cpl | CupParser | AlfrescoAgreement
  {
    /** The URL as the table holds it: the scheme, then `Location`. */
    function Text(): (r: string)
      ensures StartsWith(r, "http") && |r| > |Location()|
      ensures Location() != [] && r[|r| - |Location()|..] == Location()
    {
      (if this == CupParser then "http://" else "https://") + Location()
    }

    /** The host and path of the URL. */
    function Location(): string {
      match this
      case Apache2 => "www.apache.org/licenses/LICENSE-2.0.txt"
      case Mit => "opensource.org/licenses/MIT"
      case Bsd3 => "opensource.org/licenses/BSD-3-Clause"
      case Gpl2 => "www.gnu.org/licenses/old-licenses/gpl-2.0.html"
      case Gpl3 => "www.gnu.org/licenses/gpl-3.0.html"
      case Gpl2Text => "www.gnu.org/licenses/old-licenses/gpl-2.0.txt"
      case Lgpl3 => "www.gnu.org/licenses/lgpl-3.0.html"
      case Epl2 => "www.eclipse.org/legal/epl-2.0/"
      case Epl1 => "www.eclipse.org/legal/epl-v10.html"
      case Mpl2 => "www.mozilla.org/en-US/MPL/2.0/"
      case Mpl11 => "www.mozilla.org/en-US/MPL/1.1/"
      case Cddl => "opensource.org/licenses/CDDL-1.0"
      case Unicode3 => "www.unicode.org/license.txt"
      case BouncyCastle => "www.bouncycastle.org/licence.html"
      case Cpl => "opensource.org/licenses/CPL-1.0"
      case CupParser => "www2.cs.tum.edu/projects/cup/licence.php"
      case AlfrescoAgreement => "www.alfresco.com/legal/agreements"
    }

    /** One of the three GNU General Public License URLs (not the Lesser one). */
    predicate IsGpl() {
      this == Gpl2 || this == Gpl3 || this == Gpl2Text
    }
  }

  /**
   * `_LICENSE_URLS`, its entries in declaration order. The two longest keys
   * are written as several literals each so that facts about their
   * characters can be checked piecewise.
   */
  const LicenseTable: seq<(string, KnownUrl)> := [
    ("apache-2.0", Apache2),
    ("apache license, version 2.0", Apache2),
    ("the apache software license, version 2.0", Apache2),
    ("the apache software license", Apache2),
    ("apache license", Apache2),
    ("mit", Mit),
    ("mit license", Mit),
    ("bsd-3-clause", Bsd3),
    ("bsd license", Bsd3),
    ("bsd licence", Bsd3),
    ("gpl-2.0", Gpl2),
    ("gpl-3.0", Gpl3),
    ("gnu " + "general " + "public " + "license " + "v2", Gpl2Text),
    ("lgpl-3.0", Lgpl3),
    ("lgplv3", Lgpl3),
    ("gnu lesser general " + "public license v3.0 or later", Lgpl3),
    ("eclipse public license - v 2.0", Epl2),
    ("eclipse public license, version 1.0", Epl1),
    ("mpl-2.0", Mpl2),
    ("mozilla public license version 1.1", Mpl11),
    ("cddl", Cddl),
    ("unicode-3.0", Unicode3),
    ("bouncy castle licence", BouncyCastle),
    ("common public license", Cpl),
    ("cup parser generator copyright " + "notice, license, and disclaimer", CupParser),
    ("alfresco component license agreement", AlfrescoAgreement)
  ]

  /** The index of the first entry at or after `from` whose key is `n`: the dictionary lookup. */
  function KeyIndex(n: string, from: nat): (r: Option<nat>)
    ensures r.Some? ==> from <= r.value < |LicenseTable| && LicenseTable[r.value].0 == n
    ensures r.None? ==> forall i :: from <= i < |LicenseTable| ==> LicenseTable[i].0 != n
    decreases |LicenseTable| - from
  {
    if from >= |LicenseTable| then None
    else if LicenseTable[from].0 == n then Some(from)
    else KeyIndex(n, from + 1)
  }

  /** No key occurs twice, so the table is a dictionary: the first entry of a key is its only one. */
  lemma KeysDistinct()
    ensures forall a, b :: 0 <= a < b < |LicenseTable| ==> LicenseTable[a].0 != LicenseTable[b].0
  {
  }

  /** `license_name.lower().strip().strip('"')`. */
  function Normalize(licenseName: string): (n: string)
    ensures n == [] || (!IsQuote(n[0]) && !IsQuote(n[|n| - 1]))
  {
    TrimRight(TrimLeft(Strip(Lower(licenseName)), Quotes), Quotes)
  }

  /** `_apply_heuristics`: the keyword rules, tried in order; the first that fires decides. */
  function ApplyRules(n: string): Option<KnownUrl> {
    if Contains(n, "apache") && Contains(n, "2.0") then Some(Apache2)
    else if StartsWith(n, "mit") then Some(Mit)
    else if Contains(n, "bsd") then Some(Bsd3)
    else if Contains(n, "eclipse") then Some(if Contains(n, "2.0") then Epl2 else Epl1)
    else if Contains(n, "lgpl") || Contains(n, "lesser") then Some(Lgpl3)
    else if Contains(n, "gpl") then Some(if Contains(n, "3") then Gpl3 else Gpl2)
    else if Contains(n, "mozilla") || Contains(n, "mpl") then Some(if Contains(n, "2.0") then Mpl2 else Mpl11)
    else if Contains(n, "alfresco") then Some(AlfrescoAgreement)
    else None
  }

  /**
   * `get_url` (and `get_canonical_license_url`): the exact table on the
   * normalised name, else the rules. The `context` argument only feeds a
   * diagnostic and is not modelled.
   */
  function GetUrl(licenseName: string): Option<KnownUrl> {
    var n := Normalize(licenseName);
    match KeyIndex(n, 0)
    case Some(i) => Some(LicenseTable[i].1)
    case None => ApplyRules(n)
  }

  /** A normalised name that is a key of the table gets that entry's URL. */
  lemma GetUrlByTable(licenseName: string, i: nat)
    requires i < |LicenseTable| && LicenseTable[i].0 == Normalize(licenseName)
    ensures GetUrl(licenseName) == Some(LicenseTable[i].1)
  {
    KeysDistinct();
  }

  /** A normalised name that is no key of the table gets what the rules answer, if anything. */
  lemma GetUrlByRules(licenseName: string)
    requires forall i :: 0 <= i < |LicenseTable| ==> LicenseTable[i].0 != Normalize(licenseName)
    ensures GetUrl(licenseName) == ApplyRules(Normalize(licenseName))
  {
  }

  /** A name the canonicaliser leaves unmapped is no key of the table. */
  lemma UnmappedIsNoKey(licenseName: string)
    requires GetUrl(licenseName).None?
    ensures forall i :: 0 <= i < |LicenseTable| ==> LicenseTable[i].0 != Normalize(licenseName)
  {
  }

  /** The URL text of a canonicaliser result, as the Python code holds it. */
  function UrlText(u: Option<KnownUrl>): Option<string> {
    match u
    case None => None
    case Some(k) => Some(k.Text())
  }

  // ---------------------------------------------------------------------
  // The rules as an ordered table, and the first-match-wins property.
  // ---------------------------------------------------------------------

  const RuleCount: nat := 8

  /** Rule `k` of `_apply_heuristics` fires on the normalised name `n`. */
  predicate RuleFires(k: nat, n: string) {
    match k
    case 0 => Contains(n, "apache") && Contains(n, "2.0")
    case 1 => StartsWith(n, "mit")
    case 2 => Contains(n, "bsd")
    case 3 => Contains(n, "eclipse")
    case 4 => Contains(n, "lgpl") || Contains(n, "lesser")
    case 5 => Contains(n, "gpl")
    case 6 => Contains(n, "mozilla") || Contains(n, "mpl")
    case 7 => Contains(n, "alfresco")
    case _ => false
  }

  /** What rule `k` answers when it fires. */
  function RuleAnswer(k: nat, n: string): KnownUrl {
    match k
    case 0 => Apache2
    case 1 => Mit
    case 2 => Bsd3
    case 3 => if Contains(n, "2.0") then Epl2 else Epl1
    case 4 => Lgpl3
    case 5 => if Contains(n, "3") then Gpl3 else Gpl2
    case 6 => if Contains(n, "2.0") then Mpl2 else Mpl11
    case _ => AlfrescoAgreement
  }

  /** The first rule that fires decides, and no later rule is consulted. */
  lemma FirstFiringRuleWins(n: string, k: nat)
    requires k < RuleCount && RuleFires(k, n)
    requires forall j: nat :: j < k ==> !RuleFires(j, n)
    ensures ApplyRules(n) == Some(RuleAnswer(k, n))
  {
    if k > 0 { assert !RuleFires(0, n); }
    if k > 1 { assert !RuleFires(1, n); }
    if k > 2 { assert !RuleFires(2, n); }
    if k > 3 { assert !RuleFires(3, n); }
    if k > 4 { assert !RuleFires(4, n); }
    if k > 5 { assert !RuleFires(5, n); }
    if k > 6 { assert !RuleFires(6, n); }
  }

  /** When no rule fires the name stays unmapped. */
  lemma NoFiringRuleNoUrl(n: string)
    ensures ApplyRules(n).None? <==> forall k: nat :: k < RuleCount ==> !RuleFires(k, n)
  {
    if ApplyRules(n).None? {
      forall k: nat | k < RuleCount ensures !RuleFires(k, n) {}
    } else {
      assert !forall k: nat :: k < RuleCount ==> !RuleFires(k, n) by {
        if !RuleFires(0, n) && !RuleFires(1, n) && !RuleFires(2, n) && !RuleFires(3, n)
          && !RuleFires(4, n) && !RuleFires(5, n) && !RuleFires(6, n) {
          assert RuleFires(7, n);
        }
      }
    }
  }

  // ---------------------------------------------------------------------
  // Properties of the whole canonicaliser.
  // ---------------------------------------------------------------------

  // Character facts about the keys of the table that do not map to Apache 2.0.

  lemma MitAndBsdKeysLackP()
    ensures 'p' !in "mit" && 'p' !in "mit license"
    ensures 'p' !in "bsd-3-clause" && 'p' !in "bsd license" && 'p' !in "bsd licence"
  {}

  lemma GplKeysLackAOrH()
    ensures 'a' !in "gpl-2.0" && 'a' !in "gpl-3.0" && 'h' !in "gnu " + "general " + "public " + "license " + "v2"
  {}

  lemma LgplKeysLackAOrH()
    ensures 'a' !in "lgpl-3.0" && 'a' !in "lgplv3" && 'h' !in "gnu lesser general " + "public license v3.0 or later"
  {}

  lemma EclipseKeysLackA()
    ensures 'a' !in "eclipse public license - v 2.0" && 'a' !in "eclipse public license, version 1.0"
  {}

  lemma MozillaKeysLackAOrH()
    ensures 'a' !in "mpl-2.0" && 'h' !in "mozilla public license version 1.1"
  {}

  lemma OtherKeysLackAOrH()
    ensures 'a' !in "cddl" && 'a' !in "unicode-3.0" && 'h' !in "bouncy castle licence" && 'a' !in "common public license"
  {}

  lemma CupKeyLacks2()
    ensures '2' !in "cup parser generator copyright " + "notice, license, and disclaimer"
  {}

  lemma AlfrescoKeyLacksH()
    ensures 'h' !in "alfresco component license agreement"
  {}

  /** Each key of the table that is not an Apache one lacks one of the characters `a`, `p`, `h`, `2`. */
  lemma NonApacheKeyLacksAChar(i: nat)
    requires i < |LicenseTable| && LicenseTable[i].1 != Apache2
    ensures var k := LicenseTable[i].0; 'a' !in k || 'p' !in k || 'h' !in k || '2' !in k
  {
    MitAndBsdKeysLackP();
    GplKeysLackAOrH();
    LgplKeysLackAOrH();
    EclipseKeysLackA();
    MozillaKeysLackAOrH();
    OtherKeysLackAOrH();
    CupKeyLacks2();
    AlfrescoKeyLacksH();
  }

  /** Any name containing `apache` and `2.0`, in any case, gets the Apache 2.0 URL. */
  lemma ApacheWithVersion(licenseName: string)
    requires Contains(Normalize(licenseName), "apache") && Contains(Normalize(licenseName), "2.0")
    ensures GetUrl(licenseName) == Some(Apache2)
  {
    var n := Normalize(licenseName);
    var found := KeyIndex(n, 0);
    if found.Some? && LicenseTable[found.value].1 != Apache2 {
      NonApacheKeyLacksAChar(found.value);
      CharOfOccurrence(n, "apache", 'a');
      CharOfOccurrence(n, "apache", 'p');
      CharOfOccurrence(n, "apache", 'h');
      CharOfOccurrence(n, "2.0", '2');
    }
  }

  /** The keys of the table that map to a GNU General Public License URL. */
  lemma GplKeys(i: nat)
    requires i < |LicenseTable| && LicenseTable[i].1.IsGpl()
    ensures var k := LicenseTable[i].0;
      k == "gpl-2.0" || k == "gpl-3.0" || k == "gnu " + "general " + "public " + "license " + "v2"
  {}

  lemma ShortGplKeysAreNotLesser()
    ensures !OccursFrom("gpl-2.0", "lgpl", 0) && !OccursFrom("gpl-2.0", "lesser", 0)
    ensures !OccursFrom("gpl-3.0", "lgpl", 0) && !OccursFrom("gpl-3.0", "lesser", 0)
  {}

  /** Neither word searched for occurs in the words of the long GPL key. */
  lemma LongGplKeyWordsAreNotLesser(t: string)
    requires t == "lgpl" || t == "lesser"
    ensures !Contains("gnu ", t) && !Contains("general ", t) && !Contains("public ", t)
    ensures !Contains("license ", t) && !Contains("v2", t)
  {
    if t == "lgpl" {
      assert !OccursFrom("gnu ", "lgpl", 0);
      assert !OccursFrom("general ", "lgpl", 0);
      assert !OccursFrom("public ", "lgpl", 0);
      assert !OccursFrom("license ", "lgpl", 0);
      assert !OccursFrom("v2", "lgpl", 0);
    } else {
      assert !OccursFrom("gnu ", "lesser", 0);
      assert !OccursFrom("general ", "lesser", 0);
      assert !OccursFrom("public ", "lesser", 0);
      assert !OccursFrom("license ", "lesser", 0);
      assert !OccursFrom("v2", "lesser", 0);
    }
    OccursFromContains("gnu ", t, 0);
    OccursFromContains("general ", t, 0);
    OccursFromContains("public ", t, 0);
    OccursFromContains("license ", t, 0);
    OccursFromContains("v2", t, 0);
  }

  lemma LongGplKeyIsNotLesser(t: string)
    requires t == "lgpl" || t == "lesser"
    ensures !Contains("gnu " + "general " + "public " + "license " + "v2", t)
  {
    LongGplKeyWordsAreNotLesser(t);
    if Contains("gnu " + "general " + "public " + "license " + "v2", t) {
      ContainsAcrossSpace("gnu " + "general " + "public " + "license ", "v2", t);
      ContainsAcrossSpace("gnu " + "general " + "public ", "license ", t);
      ContainsAcrossSpace("gnu " + "general ", "public ", t);
      ContainsAcrossSpace("gnu ", "general ", t);
    }
  }

  /** The three GNU General Public License keys mention neither `lgpl` nor `lesser`. */
  lemma GplKeyIsNotLesser(i: nat)
    requires i < |LicenseTable| && LicenseTable[i].1.IsGpl()
    ensures !Contains(LicenseTable[i].0, "lgpl") && !Contains(LicenseTable[i].0, "lesser")
  {
    var k := LicenseTable[i].0;
    GplKeys(i);
    ShortGplKeysAreNotLesser();
    LongGplKeyIsNotLesser("lgpl");
    LongGplKeyIsNotLesser("lesser");
    OccursFromContains(k, "lgpl", 0);
    OccursFromContains(k, "lesser", 0);
  }

  /**
   * The LGPL rule comes before the GPL rule, and no GPL key of the table
   * mentions `lgpl` or `lesser`: such a name never gets a GPL URL.
   */
  lemma LesserNeverGpl(licenseName: string)
    requires Contains(Normalize(licenseName), "lgpl") || Contains(Normalize(licenseName), "lesser")
    ensures GetUrl(licenseName).Some? && !GetUrl(licenseName).value.IsGpl()
  {
    var n := Normalize(licenseName);
    var found := KeyIndex(n, 0);
    if found.Some? {
      if LicenseTable[found.value].1.IsGpl() {
        GplKeyIsNotLesser(found.value);
      }
    } else {
      RulesAnswerLesserName(n);
    }
  }

  /** By the rules alone, a name mentioning `lgpl` or `lesser` gets a non-GPL URL. */
  lemma RulesAnswerLesserName(n: string)
    requires Contains(n, "lgpl") || Contains(n, "lesser")
    ensures ApplyRules(n).Some? && !ApplyRules(n).value.IsGpl()
  {
    if !RuleFires(0, n) && !RuleFires(1, n) && !RuleFires(2, n) && !RuleFires(3, n) {
      assert ApplyRules(n) == Some(Lgpl3);
    }
  }

  /** By the rules alone, only the `mit` prefix rule answers the MIT URL. */
  lemma RulesAnswerMitByPrefix(n: string)
    requires ApplyRules(n) == Some(Mit)
    ensures StartsWith(n, "mit")
  {
    if !RuleFires(0, n) {
      assert RuleFires(1, n);
    }
  }

  /** The keys of the table that map to the MIT URL. */
  lemma MitKeys(i: nat)
    requires i < |LicenseTable| && LicenseTable[i].1 == Mit
    ensures StartsWith(LicenseTable[i].0, "mit")
  {
    assert LicenseTable[i].0 == "mit" || LicenseTable[i].0 == "mit license";
    assert StartsWith("mit license", "mit");
  }

  /** Of the rules, only the one for `mit` answers the MIT URL, and only by prefix. */
  lemma MitOnlyByPrefix(licenseName: string)
    requires GetUrl(licenseName) == Some(Mit)
    ensures StartsWith(Normalize(licenseName), "mit")
  {
    var n := Normalize(licenseName);
    var found := KeyIndex(n, 0);
    if found.Some? {
      MitKeys(found.value);
    } else {
      RulesAnswerMitByPrefix(n);
    }
  }

  /**
   * A name with no upper-case letter, no whitespace at its ends and no quote
   * at its ends is already normalised.
   */
  lemma NormalizeOfNormal(n: string)
    requires forall i :: 0 <= i < |n| ==> !('A' <= n[i] <= 'Z')
    requires IsTrimmed(n) && (n == [] || (!IsQuote(n[0]) && !IsQuote(n[|n| - 1])))
    ensures Normalize(n) == n
  {
    assert Lower(n) == n;
    StripOfTrimmed(n);
  }
}

=== FILE: maven_central.dfy ===
/**
 * `MavenCentral`: the license lookup over Maven project descriptors (POM
 * files), following the chain of parent descriptors up to a depth bound.
 *
 * Fetching and parsing a descriptor is an oracle `Fetch`; the GitHub license
 * service is an oracle `GitHubApi`. Both are pure, so the memoisation of the
 * fetch changes nothing.
 */
module MavenCentral {
  import opened Wrappers
  import opened Strings
  import opened LicenseMapper
  import opened Domain

  /** Maven coordinates: group, artifact and version. */
  datatype Triple = Triple(group: string, artifact: string, version: string)

  /** The texts of one `<license>` element's `<name>` and `<url>`, empty when absent. */
  datatype LicenseEntry = LicenseEntry(name: string, url: string)

  /** The texts of the `<parent>` element's `<groupId>`, `<artifactId>` and `<version>`. */
  datatype ParentRef = ParentRef(group: string, artifact: string, version: string)

  /**
   * What the lookup reads from a descriptor: its `<license>` elements in
   * document order, the text of `<scm><url>` (empty when absent) and the
   * `<parent>` element, if any.
   */
  datatype Descriptor = Descriptor(licenses: seq<LicenseEntry>, scmUrl: string, parent: Option<ParentRef>)

  /** `fetch_pom`: the descriptor of a triple, or nothing when it cannot be fetched or parsed. */
  type Fetch = Triple -> Option<Descriptor>

  /** The license list the GitHub service gives for a repository URL. */
  type GitHubApi = string -> seq<License>

  /** `max_depth` of `lookup_license_recursively`. */
  const MaxDepth: nat := 4

  /**
   * `GitHubClient.get_license_from_repo_url`: only a URL mentioning
   * `github.com` is sent to the service.
   */
  function GitHubLicenses(repoUrl: string, api: GitHubApi): (r: seq<License>)
    ensures r != [] ==> Contains(repoUrl, "github.com") && r == api(repoUrl)
  {
    if Contains(repoUrl, "github.com") then api(repoUrl) else []
  }

  /**
   * One `<license>` element: nothing when its stripped name is empty;
   * otherwise a license whose URL is the stripped URL text, or the
   * canonical URL of the name when that text is empty.
   */
  function EntryLicense(e: LicenseEntry): (r: Option<License>)
    ensures r.None? <==> Strip(e.name) == []
    ensures r.Some? ==> r.value.name == Strip(e.name) && r.value.url != Some("")
    ensures r.Some? && Strip(e.url) != [] ==> r.value.url == Some(Strip(e.url))
  {
    var name := Strip(e.name);
    var url := Strip(e.url);
    if name == [] then None
    else Some(NewLicense(name, if url != [] then Some(url) else UrlText(GetUrl(name))))
  }

  /** The license of one element as a list of at most one. */
  function EntryLicenses(e: LicenseEntry): (r: seq<License>)
    ensures |r| <= 1
  {
    match EntryLicense(e)
    case None => []
    case Some(l) => [l]
  }

  /** The licenses of the elements that have a name, in document order. */
  function DeclaredLicenses(entries: seq<LicenseEntry>): (r: seq<License>)
    ensures |r| <= |entries|
    ensures forall l :: l in r ==> l.name != [] && IsTrimmed(l.name) && l.url != Some("")
    decreases |entries|
  {
    if entries == [] then []
    else DeclaredLicenses(entries[..|entries| - 1]) + EntryLicenses(entries[|entries| - 1])
  }

  /** No license is declared exactly when every element's name is blank. */
  lemma {:induction false} NoDeclaredLicenses(entries: seq<LicenseEntry>)
    ensures DeclaredLicenses(entries) == [] <==> forall e :: e in entries ==> Strip(e.name) == []
    decreases |entries|
  {
    if entries != [] {
      var init := entries[..|entries| - 1];
      NoDeclaredLicenses(init);
      assert forall e :: e in entries <==> e in init || e == entries[|entries| - 1];
    }
  }

  /**
   * `extract_licenses_from_pom`: the declared licenses; when there are none,
   * the GitHub licenses of a non-empty SCM URL; otherwise nothing.
   */
  function ExtractLicenses(d: Descriptor, api: GitHubApi): (r: seq<License>)
    ensures DeclaredLicenses(d.licenses) != [] ==> r == DeclaredLicenses(d.licenses)
    ensures DeclaredLicenses(d.licenses) == [] && d.scmUrl == [] ==> r == []
  {
    var declared := DeclaredLicenses(d.licenses);
    if declared != [] then declared
    else if d.scmUrl != [] then GitHubLicenses(d.scmUrl, api)
    else []
  }

  /** Without declared licenses, only a `github.com` SCM URL can still give some. */
  lemma OnlyGitHubFallback(d: Descriptor, api: GitHubApi)
    requires DeclaredLicenses(d.licenses) == [] && ExtractLicenses(d, api) != []
    ensures Contains(d.scmUrl, "github.com") && ExtractLicenses(d, api) == api(d.scmUrl)
  {}

  /**
   * Without declared licenses the result is the GitHub service's answer for
   * an SCM URL mentioning `github.com`, and nothing otherwise.
   */
  lemma ScmFallback(d: Descriptor, api: GitHubApi)
    requires DeclaredLicenses(d.licenses) == []
    ensures ExtractLicenses(d, api) == if Contains(d.scmUrl, "github.com") then api(d.scmUrl) else []
  {
    if Contains(d.scmUrl, "github.com") {
      var i :| 0 <= i <= |d.scmUrl| && OccursAt(d.scmUrl, "github.com", i);
      assert |d.scmUrl| >= 10;
    }
  }

  /** The body of the loop of `extract_licenses_from_pom`: one `<license>` element read. */
  method ReadLicenseElement(e: LicenseEntry) returns (r: seq<License>)
    ensures r == EntryLicenses(e)
  {
    var name := Strip(e.name);
    var url := Strip(e.url);
    if name == [] {
      return [];
    }
    r := [NewLicense(name, if url != [] then Some(url) else UrlText(GetUrl(name)))];
  }

  /** The loop of `extract_licenses_from_pom` over the `<license>` elements. */
  method ReadLicenseElements(entries: seq<LicenseEntry>) returns (licenses: seq<License>)
    ensures licenses == DeclaredLicenses(entries)
  {
    licenses := [];
    var i := 0;
    while i < |entries|
      invariant 0 <= i <= |entries|
      invariant licenses == DeclaredLicenses(entries[..i])
    {
      ghost var previous := licenses;
      var entry := ReadLicenseElement(entries[i]);
      licenses := licenses + entry;
      DeclaredLicensesStep(entries, i, previous, licenses);
      i := i + 1;
    }
    assert entries[..i] == entries;
  }

  /**
   * `extract_licenses_from_pom`: the licenses of the `<license>` elements,
   * then the GitHub fallback when there are none.
   */
  method ExtractLicensesFromPom(d: Descriptor, api: GitHubApi) returns (licenses: seq<License>)
    ensures licenses == ExtractLicenses(d, api)
  {
    licenses := ReadLicenseElements(d.licenses);
    if licenses != [] {
      return;
    }
    if d.scmUrl != [] {
      licenses := GitHubLicenses(d.scmUrl, api);
      return;
    }
    licenses := [];
  }

  /** One more `<license>` element read: its license, if any, joins those declared before it. */
  lemma DeclaredLicensesStep(entries: seq<LicenseEntry>, i: nat, previous: seq<License>, licenses: seq<License>)
    requires i < |entries| && previous == DeclaredLicenses(entries[..i])
    requires licenses == previous + EntryLicenses(entries[i])
    ensures licenses == DeclaredLicenses(entries[..i + 1])
  {
    assert entries[..i + 1][..i] == entries[..i];
  }

  /**
   * The triple of the parent descriptor: the group defaults to the child's
   * when its text is empty, every part is stripped, and a parent without an
   * artifact or a version is no parent.
   */
  function ParentTriple(child: Triple, p: ParentRef): (r: Option<Triple>)
    ensures r.None? <==> Strip(p.artifact) == [] || Strip(p.version) == []
    ensures r.Some? ==> r.value.artifact == Strip(p.artifact) && r.value.version == Strip(p.version)
    ensures r.Some? ==> r.value.group == Strip(if p.group != [] then p.group else child.group)
  {
    var group := Strip(if p.group != [] then p.group else child.group);
    var artifact := Strip(p.artifact);
    var version := Strip(p.version);
    if artifact != [] && version != [] then Some(Triple(group, artifact, version)) else None
  }

  /** What one level of the lookup decides about a triple. */
  datatype Step =
    | Done(licenses: seq<License>)  // the answer, possibly empty
    | Climb(parent: Triple)         // no licenses here: look at the parent

  /**
   * One level of `lookup_license_recursively`: fetch the descriptor, take
   * its licenses when there are any, otherwise go to the parent triple.
   */
  function LookupStep(fetch: Fetch, api: GitHubApi, t: Triple): (s: Step)
    ensures s.Done? && s.licenses != [] ==>
      fetch(t).Some? && s.licenses == ExtractLicenses(fetch(t).value, api)
    ensures s.Climb? ==>
      && fetch(t).Some? && ExtractLicenses(fetch(t).value, api) == []
      && fetch(t).value.parent.Some? && ParentTriple(t, fetch(t).value.parent.value) == Some(s.parent)
  {
    match fetch(t)
    case None => Done([])
    case Some(d) =>
      var licenses := ExtractLicenses(d, api);
      if licenses != [] then Done(licenses)
      else match d.parent
        case None => Done([])
        case Some(p) =>
          match ParentTriple(t, p)
          case None => Done([])
          case Some(pt) => Climb(pt)
  }

  /** The steps taken from `t` with at most `maxDepth` levels: the licenses found. */
  function Walk(step: Triple -> Step, t: Triple, maxDepth: nat): (r: seq<License>)
    ensures maxDepth == 0 ==> r == []
    ensures r != [] ==> var c := WalkChain(step, t, maxDepth); c != [] && step(c[|c| - 1]) == Done(r)
    decreases maxDepth
  {
    if maxDepth == 0 then []
    else match step(t)
      case Done(licenses) => licenses
      case Climb(pt) => Walk(step, pt, maxDepth - 1)
  }

  /** The triples a walk visits, in order. */
  function WalkChain(step: Triple -> Step, t: Triple, maxDepth: nat): (c: seq<Triple>)
    ensures |c| <= maxDepth
    ensures maxDepth > 0 ==> c != [] && c[0] == t
    decreases maxDepth
  {
    if maxDepth == 0 then []
    else match step(t)
      case Done(_) => [t]
      case Climb(pt) => [t] + WalkChain(step, pt, maxDepth - 1)
  }

  /** Every triple of `c` but the last climbs to the next one. */
  predicate Linked(step: Triple -> Step, c: seq<Triple>) {
    forall k :: 0 <= k < |c| - 1 ==> step(c[k]) == Climb(c[k + 1])
  }

  /**
   * The chain of a walk is linked by its steps, and a walk that finds
   * licenses found them at the last triple.
   */
  lemma {:induction false} WalkFollowsChain(step: Triple -> Step, t: Triple, maxDepth: nat)
    ensures Linked(step, WalkChain(step, t, maxDepth))
    ensures var c := WalkChain(step, t, maxDepth);
      Walk(step, t, maxDepth) != [] ==> c != [] && step(c[|c| - 1]) == Done(Walk(step, t, maxDepth))
    decreases maxDepth
  {
    if maxDepth > 0 && step(t).Climb? {
      var pt := step(t).parent;
      WalkFollowsChain(step, pt, maxDepth - 1);
      var rest := WalkChain(step, pt, maxDepth - 1);
      var c := [t] + rest;
      assert WalkChain(step, t, maxDepth) == c;
      forall k | 0 <= k < |c| - 1
        ensures step(c[k]) == Climb(c[k + 1])
      {
        if k > 0 {
          assert c[k] == rest[k - 1] && c[k + 1] == rest[k];
        } else {
          assert c[0] == t && c[1] == rest[0] == pt;
        }
      }
    }
  }

  /** A walk depends on the step only at the triples of its chain. */
  lemma {:induction false} WalkReadsOnlyChain(s1: Triple -> Step, s2: Triple -> Step, t: Triple, maxDepth: nat)
    requires forall x :: x in WalkChain(s1, t, maxDepth) ==> s1(x) == s2(x)
    ensures WalkChain(s1, t, maxDepth) == WalkChain(s2, t, maxDepth)
    ensures Walk(s1, t, maxDepth) == Walk(s2, t, maxDepth)
    decreases maxDepth
  {
    if maxDepth > 0 {
      assert t in WalkChain(s1, t, maxDepth);
      if s1(t).Climb? {
        var pt := s1(t).parent;
        assert WalkChain(s1, t, maxDepth) == [t] + WalkChain(s1, pt, maxDepth - 1);
        WalkReadsOnlyChain(s1, s2, pt, maxDepth - 1);
      }
    }
  }

  /** `lookup_license_recursively(t, maxDepth)`. */
  function Lookup(fetch: Fetch, api: GitHubApi, t: Triple, maxDepth: nat): (r: seq<License>)
    ensures maxDepth == 0 ==> r == []
    ensures r != [] ==> var c := Chain(fetch, api, t, maxDepth);
      c != [] && fetch(c[|c| - 1]).Some? && r == ExtractLicenses(fetch(c[|c| - 1]).value, api)
  {
    Walk(x => LookupStep(fetch, api, x), t, maxDepth)
  }

  /** The triples whose descriptors the lookup fetches, in the order it fetches them. */
  function Chain(fetch: Fetch, api: GitHubApi, t: Triple, maxDepth: nat): (c: seq<Triple>)
    ensures |c| <= maxDepth
  {
    WalkChain(x => LookupStep(fetch, api, x), t, maxDepth)
  }

  /** A depth of zero fetches nothing and finds nothing. */
  lemma ZeroDepthFindsNothing(fetch: Fetch, api: GitHubApi, t: Triple)
    ensures Lookup(fetch, api, t, 0) == [] && Chain(fetch, api, t, 0) == []
  {}

  /**
   * The lookup reads the oracle only at the triples of its chain: two
   * oracles that agree there give the same chain and the same licenses.
   * With `|Chain| <= maxDepth`, at most `maxDepth` descriptors are fetched.
   */
  lemma LookupReadsOnlyChain(f1: Fetch, f2: Fetch, api: GitHubApi, t: Triple, maxDepth: nat)
    requires forall x :: x in Chain(f1, api, t, maxDepth) ==> f1(x) == f2(x)
    ensures Chain(f1, api, t, maxDepth) == Chain(f2, api, t, maxDepth)
    ensures Lookup(f1, api, t, maxDepth) == Lookup(f2, api, t, maxDepth)
  {
    var s1 := x => LookupStep(f1, api, x);
    var s2 := x => LookupStep(f2, api, x);
    forall x | x in WalkChain(s1, t, maxDepth)
      ensures s1(x) == s2(x)
    {
      assert f1(x) == f2(x);
    }
    WalkReadsOnlyChain(s1, s2, t, maxDepth);
  }

  /** Licenses found in the first descriptor are the answer; no parent is fetched. */
  lemma ImmediateLicensesWin(fetch: Fetch, api: GitHubApi, t: Triple, maxDepth: nat)
    requires maxDepth > 0 && fetch(t).Some? && ExtractLicenses(fetch(t).value, api) != []
    ensures Lookup(fetch, api, t, maxDepth) == ExtractLicenses(fetch(t).value, api)
    ensures Chain(fetch, api, t, maxDepth) == [t]
  {}

  /** A licence-less descriptor whose parent lacks an artifact or a version ends the lookup empty. */
  lemma IncompleteParentFindsNothing(fetch: Fetch, api: GitHubApi, t: Triple, maxDepth: nat)
    requires maxDepth > 0 && fetch(t).Some? && ExtractLicenses(fetch(t).value, api) == []
    requires fetch(t).value.parent.Some?
    requires Strip(fetch(t).value.parent.value.artifact) == [] || Strip(fetch(t).value.parent.value.version) == []
    ensures Lookup(fetch, api, t, maxDepth) == []
    ensures Chain(fetch, api, t, maxDepth) == [t]
  {}

  /**
   * Along the chain each descriptor has no licenses and names the next
   * triple as its parent; licenses found are those of the last descriptor.
   */
  lemma FoundAtEndOfChain(fetch: Fetch, api: GitHubApi, t: Triple, maxDepth: nat)
    ensures var c := Chain(fetch, api, t, maxDepth);
      forall k :: 0 <= k < |c| - 1 ==>
        && fetch(c[k]).Some? && ExtractLicenses(fetch(c[k]).value, api) == []
        && fetch(c[k]).value.parent.Some?
        && ParentTriple(c[k], fetch(c[k]).value.parent.value) == Some(c[k + 1])
    ensures var c := Chain(fetch, api, t, maxDepth);
      Lookup(fetch, api, t, maxDepth) != [] ==>
        && c != [] && fetch(c[|c| - 1]).Some?
        && Lookup(fetch, api, t, maxDepth) == ExtractLicenses(fetch(c[|c| - 1]).value, api)
  {
    var step := x => LookupStep(fetch, api, x);
    WalkFollowsChain(step, t, maxDepth);
    var c := WalkChain(step, t, maxDepth);
    forall k | 0 <= k < |c| - 1
      ensures fetch(c[k]).Some? && ExtractLicenses(fetch(c[k]).value, api) == []
      ensures fetch(c[k]).value.parent.Some?
      ensures ParentTriple(c[k], fetch(c[k]).value.parent.value) == Some(c[k + 1])
    {
      assert step(c[k]) == Climb(c[k + 1]);
    }
  }

  /** A walk along a linked chain within the depth ends where the chain ends. */
  lemma {:induction false} WalkAlongLinked(step: Triple -> Step, c: seq<Triple>, maxDepth: nat)
    requires c != [] && |c| <= maxDepth && Linked(step, c) && step(c[|c| - 1]).Done?
    ensures Walk(step, c[0], maxDepth) == step(c[|c| - 1]).licenses
    ensures WalkChain(step, c[0], maxDepth) == c
    decreases |c|
  {
    if |c| > 1 {
      var rest := c[1..];
      assert Linked(step, rest) by {
        forall k | 0 <= k < |rest| - 1
          ensures step(rest[k]) == Climb(rest[k + 1])
        {
          assert step(c[k + 1]) == Climb(c[k + 2]);
        }
      }
      assert step(c[0]) == Climb(c[1]);
      WalkAlongLinked(step, rest, maxDepth - 1);
      assert [c[0]] + rest == c;
    }
  }

  /** A walk along a linked chain longer than the depth runs out of depth and finds nothing. */
  lemma {:induction false} WalkBeyondDepth(step: Triple -> Step, c: seq<Triple>, maxDepth: nat)
    requires |c| > maxDepth && Linked(step, c)
    ensures Walk(step, c[0], maxDepth) == []
    ensures WalkChain(step, c[0], maxDepth) == c[..maxDepth]
    decreases maxDepth
  {
    if maxDepth > 0 {
      var rest := c[1..];
      assert Linked(step, rest) by {
        forall k | 0 <= k < |rest| - 1
          ensures step(rest[k]) == Climb(rest[k + 1])
        {
          assert step(c[k + 1]) == Climb(c[k + 2]);
        }
      }
      assert step(c[0]) == Climb(c[1]);
      WalkBeyondDepth(step, rest, maxDepth - 1);
      assert [c[0]] + rest[..maxDepth - 1] == c[..maxDepth];
    }
  }

  /**
   * A chain of descriptors each fetched, without licenses, and naming the
   * next triple as its complete parent.
   */
  ghost predicate ParentChain(fetch: Fetch, api: GitHubApi, c: seq<Triple>) {
    forall k :: 0 <= k < |c| - 1 ==>
      && fetch(c[k]).Some? && ExtractLicenses(fetch(c[k]).value, api) == []
      && fetch(c[k]).value.parent.Some?
      && ParentTriple(c[k], fetch(c[k]).value.parent.value) == Some(c[k + 1])
  }

  /** Along a parent chain every step of the lookup climbs to the next triple. */
  lemma ParentChainIsLinked(fetch: Fetch, api: GitHubApi, c: seq<Triple>)
    requires ParentChain(fetch, api, c)
    ensures Linked(x => LookupStep(fetch, api, x), c)
  {
    forall k | 0 <= k < |c| - 1
      ensures LookupStep(fetch, api, c[k]) == Climb(c[k + 1])
    {
    }
  }

  /**
   * A descriptor without licenses and with a complete parent sends the
   * lookup to the parent, one level less deep.
   */
  lemma LookupClimbs(fetch: Fetch, api: GitHubApi, t: Triple, maxDepth: nat, pt: Triple)
    requires maxDepth > 0 && fetch(t).Some? && ExtractLicenses(fetch(t).value, api) == []
    requires fetch(t).value.parent.Some? && ParentTriple(t, fetch(t).value.parent.value) == Some(pt)
    ensures Lookup(fetch, api, t, maxDepth) == Lookup(fetch, api, pt, maxDepth - 1)
    ensures Chain(fetch, api, t, maxDepth) == [t] + Chain(fetch, api, pt, maxDepth - 1)
  {
    assert LookupStep(fetch, api, t) == Climb(pt);
  }

  /**
   * Licenses at the end of a parent chain no longer than the depth are
   * found, and the chain is exactly the descriptors fetched.
   */
  lemma FoundWithinDepth(fetch: Fetch, api: GitHubApi, c: seq<Triple>, maxDepth: nat)
    requires c != [] && |c| <= maxDepth && ParentChain(fetch, api, c)
    requires fetch(c[|c| - 1]).Some? && ExtractLicenses(fetch(c[|c| - 1]).value, api) != []
    ensures Lookup(fetch, api, c[0], maxDepth) == ExtractLicenses(fetch(c[|c| - 1]).value, api)
    ensures Chain(fetch, api, c[0], maxDepth) == c
  {
    ParentChainIsLinked(fetch, api, c);
    WalkAlongLinked(x => LookupStep(fetch, api, x), c, maxDepth);
  }

  /**
   * A parent chain longer than the depth is cut off: the lookup fetches its
   * first `maxDepth` descriptors and finds nothing.
   */
  lemma NothingBeyondDepth(fetch: Fetch, api: GitHubApi, c: seq<Triple>, maxDepth: nat)
    requires |c| > maxDepth && ParentChain(fetch, api, c)
    ensures Lookup(fetch, api, c[0], maxDepth) == []
    ensures Chain(fetch, api, c[0], maxDepth) == c[..maxDepth]
  {
    ParentChainIsLinked(fetch, api, c);
    WalkBeyondDepth(x => LookupStep(fetch, api, x), c, maxDepth);
  }
}

=== FILE: package_heuristics.dfy ===
/**
 * `PackageHeuristics`: licenses guessed from a package's name and purl, by
 * an ordered table of rules, each a license and a list of conditions.
 */
module PackageHeuristics {
  import opened Wrappers
  import opened Strings
  import opened LicenseMapper
  import opened Domain

  /** The shapes of condition the rules use. */
  datatype Condition =
    | PurlContains(fragment: string)          // `fragment in pkg.purl`
    | NameStartsWithAny(prefixes: seq<string>) // `pkg.name.startswith(prefixes)`
    | NameIn(names: set<string>)              // `pkg.name in names`
    | NameStartsWithOrIs(prefix: string, exact: string)  // `startswith(prefix) or == exact`

  predicate Holds(c: Condition, p: Package) {
    match c
    case PurlContains(fragment) => Contains(p.purl, fragment)
    case NameStartsWithAny(prefixes) => exists i :: 0 <= i < |prefixes| && StartsWith(p.name, prefixes[i])
    case NameIn(names) => p.name in names
    case NameStartsWithOrIs(prefix, exact) => StartsWith(p.name, prefix) || p.name == exact
  }

  /** An entry of `HEURISTIC_RULES`. */
  datatype Rule = Rule(name: string, license: License, conditions: seq<Condition>)

  predicate RuleMatches(r: Rule, p: Package) {
    exists i :: 0 <= i < |r.conditions| && Holds(r.conditions[i], p)
  }

  /** The three licenses the rules give, with the table's URLs (see `ApacheUrlIsCanonical`). */
  const ApacheLicense: License := License("Apache-2.0", Some(Apache2.Text()))
  const EclipseLicense: License := License("EPL-2.0", Some(Epl2.Text()))
  const BsdLicense: License := License("BSD-3-Clause", Some(Bsd3.Text()))

  const ApacheNames: set<string> :=
    {"catalina", "jasper", "catalina-ha", "catalina-tribes", "catalina-ssi", "catalina-storeconfig"}

  /** `HEURISTIC_RULES`, in declaration order. */
  const Rules: seq<Rule> := [
    Rule("apache_packages", ApacheLicense, [
      PurlContains("org.apache"),
      NameStartsWithAny(["tomcat", "tika-", "commons-"]),
      NameIn(ApacheNames)
    ]),
    Rule("jakarta_packages", EclipseLicense, [NameStartsWithAny(["jakarta"])]),
    Rule("st4_packages", BsdLicense, [NameStartsWithOrIs("st4", "ST4")]),
    Rule("acegi_packages", ApacheLicense, [NameStartsWithAny(["acegi"])])
  ]

  /** The first rule at or after `from` that matches `p`. */
  function FirstMatch(rules: seq<Rule>, p: Package, from: nat): (r: Option<nat>)
    ensures r.Some? ==> from <= r.value < |rules| && RuleMatches(rules[r.value], p)
    ensures r.Some? ==> forall j :: from <= j < r.value ==> !RuleMatches(rules[j], p)
    ensures r.None? ==> forall j :: from <= j < |rules| ==> !RuleMatches(rules[j], p)
    decreases |rules| - from
  {
    if from >= |rules| then None
    else if RuleMatches(rules[from], p) then Some(from)
    else FirstMatch(rules, p, from + 1)
  }

  /**
   * `apply_heuristics`: the license of the first matching rule, as a list
   * of one, or nothing when no rule matches.
   */
  function HeuristicLicenses(p: Package): (r: seq<License>)
    ensures |r| <= 1
    ensures r == [] <==> forall j :: 0 <= j < |Rules| ==> !RuleMatches(Rules[j], p)
    ensures r != [] ==>
      exists i :: && 0 <= i < |Rules| && RuleMatches(Rules[i], p) && r == [Rules[i].license]
                  && forall j :: 0 <= j < i ==> !RuleMatches(Rules[j], p)
  {
    match FirstMatch(Rules, p, 0)
    case None => []
    case Some(i) => [Rules[i].license]
  }

  /** `apply_heuristics` with its nested loops and early return. */
  method ApplyHeuristics(p: Package) returns (r: seq<License>)
    ensures r == HeuristicLicenses(p)
  {
    var i := 0;
    while i < |Rules|
      invariant 0 <= i <= |Rules|
      invariant forall j :: 0 <= j < i ==> !RuleMatches(Rules[j], p)
    {
      var conditions := Rules[i].conditions;
      var k := 0;
      while k < |conditions|
        invariant 0 <= k <= |conditions|
        invariant forall m :: 0 <= m < k ==> !Holds(conditions[m], p)
      {
        if Holds(conditions[k], p) {
          assert RuleMatches(Rules[i], p);
          FirstMatchIsFirst(Rules, p, i);
          return [Rules[i].license];
        }
        k := k + 1;
      }
      i := i + 1;
    }
    return [];
  }

  /** A matching rule with no matching rule before it is the first match. */
  lemma FirstMatchIsFirst(rules: seq<Rule>, p: Package, i: nat)
    requires i < |rules| && RuleMatches(rules[i], p)
    requires forall j :: 0 <= j < i ==> !RuleMatches(rules[j], p)
    ensures FirstMatch(rules, p, 0) == Some(i)
  {
  }

  /** The URL of the Apache rule license is what the canonicaliser gives for `apache-2.0`. */
  lemma ApacheUrlIsCanonical()
    ensures GetUrl("apache-2.0") == Some(Apache2)
  {
    NormalizeOfNormal("apache-2.0");
    ApacheEntry();
    GetUrlByTable("apache-2.0", 0);
  }

  lemma ApacheEntry()
    ensures LicenseTable[0] == ("apache-2.0", Apache2)
  {
  }

  /** The URL of the BSD rule license is what the canonicaliser gives for `bsd-3-clause`. */
  lemma BsdUrlIsCanonical()
    ensures GetUrl("bsd-3-clause") == Some(Bsd3)
  {
    NormalizeOfNormal("bsd-3-clause");
    BsdEntry();
    GetUrlByTable("bsd-3-clause", 7);
  }

  lemma BsdEntry()
    ensures LicenseTable[7] == ("bsd-3-clause", Bsd3)
  {
  }

  /** The URL of the EPL rule license is what the canonicaliser gives for its table key. */
  lemma EplUrlIsCanonical()
    ensures GetUrl("eclipse public license - v 2.0") == Some(Epl2)
  {
    NormalizeOfNormal("eclipse public license - v 2.0");
    EplEntry();
    GetUrlByTable("eclipse public license - v 2.0", 16);
  }

  lemma EplEntry()
    ensures LicenseTable[16] == ("eclipse public license - v 2.0", Epl2)
  {
  }

  /** A `jakarta` package published under `org.apache` gets Apache 2.0: the Apache rule comes first. */
  lemma JakartaUnderApache(p: Package)
    requires StartsWith(p.name, "jakarta") && Contains(p.purl, "org.apache")
    ensures HeuristicLicenses(p) == [ApacheLicense]
  {
    assert Holds(Rules[0].conditions[0], p);
    FirstMatchIsFirst(Rules, p, 0);
  }

  /** Any other `jakarta` package gets EPL 2.0. */
  lemma JakartaElsewhere(p: Package)
    requires StartsWith(p.name, "jakarta") && !Contains(p.purl, "org.apache")
    ensures HeuristicLicenses(p) == [EclipseLicense]
  {
    var n := p.name;
    assert n[0] == 'j' && n[1] == 'a' && n[2] == 'k' && |n| >= 7;
    var prefixes := ["tomcat", "tika-", "commons-"];
    forall i | 0 <= i < |prefixes|
      ensures !StartsWith(n, prefixes[i])
    {
      assert prefixes[i][0] != 'j';
    }
    assert n !in ApacheNames;
    assert !RuleMatches(Rules[0], p);
    assert Holds(Rules[1].conditions[0], p) by {
      assert StartsWith(n, ["jakarta"][0]);
    }
    FirstMatchIsFirst(Rules, p, 1);
  }
}

=== FILE: report.dfy ===
/**
 * `Report`: the summary figures of the HTML report, computed over the final
 * package list.
 */
module Report {
  import opened Domain
  import opened MavenCentral
  import opened Enricher

  /** The counts of `_calculate_statistics`; the coverage percentage is not modelled. */
  datatype Stats = Stats(total: nat, withLicenses: nat, withoutLicenses: nat, uniqueLicenses: nat)

  /** The number of packages that have at least one license. */
  function CountLicensed(ps: seq<Package>): (n: nat)
    ensures n <= |ps|
    decreases |ps|
  {
    if ps == [] then 0
    else CountLicensed(ps[..|ps| - 1]) + (if ps[|ps| - 1].HasLicenses() then 1 else 0)
  }

  /** The names of a list of licenses. */
  function NamesIn(ls: seq<License>): set<string>
    decreases |ls|
  {
    if ls == [] then {} else NamesIn(ls[..|ls| - 1]) + {ls[|ls| - 1].name}
  }

  /** The names of every license of every package. */
  function AllLicenseNames(ps: seq<Package>): set<string>
    decreases |ps|
  {
    if ps == [] then {} else AllLicenseNames(ps[..|ps| - 1]) + NamesIn(ps[|ps| - 1].licenses)
  }

  /** The inner loop of `_calculate_statistics`: one package's license names added to the set. */
  method AddNames(unique: set<string>, ls: seq<License>) returns (r: set<string>)
    ensures r == unique + NamesIn(ls)
  {
    r := unique;
    var m := 0;
    while m < |ls|
      invariant 0 <= m <= |ls|
      invariant r == unique + NamesIn(ls[..m])
    {
      assert ls[..m + 1][..m] == ls[..m];
      r := r + {ls[m].name};
      m := m + 1;
    }
    assert ls[..m] == ls;
  }

  /** `_calculate_statistics`: the total, the packages with and without licenses, and the distinct license names. */
  method CalculateStatistics(packages: seq<Package>) returns (s: Stats)
    ensures s.total == |packages|
    ensures s.withLicenses == CountLicensed(packages)
    ensures s.withoutLicenses == |packages| - CountLicensed(packages)
    ensures s.uniqueLicenses == |AllLicenseNames(packages)|
  {
    var withLicenses := 0;
    var i := 0;
    while i < |packages|
      invariant 0 <= i <= |packages|
      invariant withLicenses == CountLicensed(packages[..i])
    {
      assert packages[..i + 1][..i] == packages[..i];
      if packages[i].HasLicenses() {
        withLicenses := withLicenses + 1;
      }
      i := i + 1;
    }
    assert packages[..i] == packages;
    var unique: set<string> := {};
    i := 0;
    while i < |packages|
      invariant 0 <= i <= |packages|
      invariant unique == AllLicenseNames(packages[..i])
    {
      assert packages[..i + 1][..i] == packages[..i];
      unique := AddNames(unique, packages[i].licenses);
      i := i + 1;
    }
    assert packages[..i] == packages;
    s := Stats(|packages|, withLicenses, |packages| - withLicenses, |unique|);
  }

  /** A name is collected exactly when some license in the list carries it. */
  lemma {:induction false} NamesInMembers(ls: seq<License>, name: string)
    ensures name in NamesIn(ls) <==> exists l :: l in ls && l.name == name
    decreases |ls|
  {
    if ls != [] {
      var init := ls[..|ls| - 1];
      NamesInMembers(init, name);
      assert forall l :: l in ls <==> l in init || l == ls[|ls| - 1];
    }
  }

  /** A name is counted exactly when some package has a license of that name. */
  lemma {:induction false} AllLicenseNamesMembers(ps: seq<Package>, name: string)
    ensures name in AllLicenseNames(ps) <==> exists i :: 0 <= i < |ps| && name in NamesIn(ps[i].licenses)
    decreases |ps|
  {
    if ps != [] {
      var init := ps[..|ps| - 1];
      AllLicenseNamesMembers(init, name);
      if name in NamesIn(ps[|ps| - 1].licenses) {
        assert 0 <= |ps| - 1 < |ps|;
      }
      assert forall i :: 0 <= i < |init| ==> init[i] == ps[i];
    }
  }

  /** The names of a non-empty license list are non-empty. */
  lemma {:induction false} NamesInNonEmpty(ls: seq<License>)
    ensures NamesIn(ls) == {} <==> ls == []
  {
    if ls != [] {
      assert ls[|ls| - 1].name in NamesIn(ls);
    }
  }

  /** There are license names exactly when some package has licenses. */
  lemma {:induction false} UniqueLicensesIffLicensed(ps: seq<Package>)
    ensures |AllLicenseNames(ps)| == 0 <==> CountLicensed(ps) == 0
    decreases |ps|
  {
    if ps != [] {
      UniqueLicensesIffLicensed(ps[..|ps| - 1]);
      NamesInNonEmpty(ps[|ps| - 1].licenses);
    }
  }

  /** Every package is licensed exactly when the count reaches the total. */
  lemma {:induction false} AllLicensedIffFull(ps: seq<Package>)
    ensures CountLicensed(ps) == |ps| <==> forall i :: 0 <= i < |ps| ==> ps[i].HasLicenses()
    decreases |ps|
  {
    if ps != [] {
      var init := ps[..|ps| - 1];
      AllLicensedIffFull(init);
      assert forall i :: 0 <= i < |init| ==> init[i] == ps[i];
    }
  }

  /** The packages without licenses are those the enricher gathers. */
  lemma {:induction false} WithoutLicensesArePending(ps: seq<Package>)
    ensures |ps| - CountLicensed(ps) == |Unlicensed(ps)|
    decreases |ps|
  {
    if ps != [] {
      WithoutLicensesArePending(ps[..|ps| - 1]);
    }
  }

  /** A list whose every licensed position stays licensed counts at least as many licensed packages. */
  lemma {:induction false} CountLicensedMonotone(ps: seq<Package>, qs: seq<Package>)
    requires |ps| == |qs|
    requires forall i :: 0 <= i < |ps| && ps[i].HasLicenses() ==> qs[i].HasLicenses()
    ensures CountLicensed(ps) <= CountLicensed(qs)
    decreases |ps|
  {
    if ps != [] {
      var n := |ps| - 1;
      assert forall i :: 0 <= i < n && ps[..n][i].HasLicenses() ==> qs[..n][i].HasLicenses();
      CountLicensedMonotone(ps[..n], qs[..n]);
    }
  }

  /** Enrichment never lowers the number of licensed packages. */
  lemma EnrichmentKeepsCoverage(ps: seq<Package>, fetch: Fetch, api: GitHubApi)
    ensures CountLicensed(ps) <= CountLicensed(EnrichAll(ps, fetch, api))
  {
    EnrichmentChangesOnlyUnlicensed(ps, fetch, api);
    CountLicensedMonotone(ps, EnrichAll(ps, fetch, api));
  }
}

=== FILE: strings.dfy ===
/**
 * The pieces of Python's `str` behaviour that the license engine relies on:
 * `isspace`, `strip`, `lower`, `startswith`, `in`, `find`, and the character
 * classes `\s` and `\w` of the `re` module. Strings are `seq<char>`.
 */
module Strings {
  import opened Wrappers

  /** `c.isspace()` in Python; in a `str` pattern `\s` matches exactly these. */
  predicate IsSpace(c: char) {
    || ('\t' <= c <= '\r')
    || ('\U{1C}' <= c <= '\U{1F}')
    || c == ' ' || c == '\U{85}' || c == '\U{A0}' || c == '\U{1680}'
    || ('\U{2000}' <= c <= '\U{200A}')
    || c == '\U{2028}' || c == '\U{2029}' || c == '\U{202F}' || c == '\U{205F}' || c == '\U{3000}'
  }

  /** The characters at which `str.splitlines()` ends a line. */
  predicate IsLineBreak(c: char) {
    || ('\n' <= c <= '\r')
    || ('\U{1C}' <= c <= '\U{1E}')
    || c == '\U{85}' || c == '\U{2028}' || c == '\U{2029}'
  }

  /** A character of `\w` (ASCII letters, digits and the underscore). */
  predicate IsWordChar(c: char) {
    ('a' <= c <= 'z') || ('A' <= c <= 'Z') || ('0' <= c <= '9') || c == '_'
  }

  predicate IsQuote(c: char) {
    c == '"'
  }

  /** The sets of characters that `strip` is asked to remove. */
  datatype CharClass = Whitespace | Quotes

  /** `c` belongs to the class `cls`. */
  predicate InClass(c: char, cls: CharClass) {
    match cls
    case Whitespace => IsSpace(c)
    case Quotes => IsQuote(c)
  }

  /** No whitespace at either end. */
  predicate IsTrimmed(s: string) {
    s == [] || (!IsSpace(s[0]) && !IsSpace(s[|s| - 1]))
  }

  /** `s.lstrip(chars)`, the stripped characters being those of the class `cls`. */
  function TrimLeft(s: string, cls: CharClass): (r: string)
    ensures |r| <= |s|
    ensures r == [] || !InClass(r[0], cls)
    ensures r != [] ==> r[|r| - 1] == s[|s| - 1]
    decreases |s|
  {
    if s != [] && InClass(s[0], cls) then TrimLeft(s[1..], cls) else s
  }

  /** `s.rstrip(chars)`, the stripped characters being those of the class `cls`. */
  function TrimRight(s: string, cls: CharClass): (r: string)
    ensures |r| <= |s|
    ensures r == [] || !InClass(r[|r| - 1], cls)
    ensures r != [] ==> r[0] == s[0]
    decreases |s|
  {
    if s != [] && InClass(s[|s| - 1], cls) then TrimRight(s[..|s| - 1], cls) else s
  }

  /** `TrimLeft` removes a prefix of characters of the class, and only that. */
  lemma {:induction false} TrimLeftDropsPrefix(s: string, cls: CharClass)
    ensures var r := TrimLeft(s, cls);
      r == s[|s| - |r|..] && forall k :: 0 <= k < |s| - |r| ==> InClass(s[k], cls)
    decreases |s|
  {
    if s != [] && InClass(s[0], cls) {
      TrimLeftDropsPrefix(s[1..], cls);
    }
  }

  /** `TrimRight` removes a suffix of characters of the class, and only that. */
  lemma {:induction false} TrimRightDropsSuffix(s: string, cls: CharClass)
    ensures var r := TrimRight(s, cls);
      r == s[..|r|] && forall k :: |r| <= k < |s| ==> InClass(s[k], cls)
    decreases |s|
  {
    if s != [] && InClass(s[|s| - 1], cls) {
      TrimRightDropsSuffix(s[..|s| - 1], cls);
    }
  }

  /** `s.strip()`: the longest infix of `s` that neither starts nor ends in whitespace. */
  function Strip(s: string): (r: string)
    ensures IsTrimmed(r) && |r| <= |s|
  {
    TrimRight(TrimLeft(s, Whitespace), Whitespace)
  }

  /** `Strip` keeps an infix of its argument, dropping only whitespace around it. */
  lemma StripIsInfix(s: string)
    ensures Contains(s, Strip(s))
    ensures forall c :: c in Strip(s) ==> c in s
  {
    var left := TrimLeft(s, Whitespace);
    var r := TrimRight(left, Whitespace);
    TrimLeftDropsPrefix(s, Whitespace);
    TrimRightDropsSuffix(left, Whitespace);
    var i := |s| - |left|;
    assert OccursAt(s, r, i);
  }

  /** A string with no whitespace at its ends is its own `Strip`. */
  lemma StripOfTrimmed(s: string)
    requires IsTrimmed(s)
    ensures Strip(s) == s
  {
    TrimLeftDropsPrefix(s, Whitespace);
    TrimRightDropsSuffix(TrimLeft(s, Whitespace), Whitespace);
  }

  /** A string with a non-space character strips to a non-empty string. */
  lemma StripKeepsNonSpace(s: string, k: nat)
    requires k < |s| && !IsSpace(s[k])
    ensures Strip(s) != []
  {
    var left := TrimLeft(s, Whitespace);
    TrimLeftDropsPrefix(s, Whitespace);
    assert k >= |s| - |left|;
    assert left[k - (|s| - |left|)] == s[k];
    TrimRightDropsSuffix(left, Whitespace);
  }

  function LowerChar(c: char): char {
    if 'A' <= c <= 'Z' then (c as int - 'A' as int + 'a' as int) as char else c
  }

  /** `s.lower()` on the ASCII letters. */
  function Lower(s: string): (r: string)
    ensures |r| == |s|
  {
    seq(|s|, i requires 0 <= i < |s| => LowerChar(s[i]))
  }

  /** `s.startswith(p)`. */
  predicate StartsWith(s: string, p: string) {
    |p| <= |s| && s[..|p|] == p
  }

  /** `t` occurs in `s` starting at index `i`. */
  predicate OccursAt(s: string, t: string, i: nat) {
    i + |t| <= |s| && s[i..i + |t|] == t
  }

  /** `t in s` for two strings. */
  predicate Contains(s: string, t: string) {
    exists i :: 0 <= i <= |s| && OccursAt(s, t, i)
  }

  /** An occurrence in a slice is an occurrence in the whole string. */
  lemma OccursInSlice(s: string, t: string, a: nat, b: nat, m: nat)
    requires a <= b <= |s| && OccursAt(s[a..b], t, m)
    ensures OccursAt(s, t, a + m)
  {
    var u := s[a..b][m..m + |t|];
    forall x | 0 <= x < |t|
      ensures u[x] == s[a + m..a + m + |t|][x]
    {
    }
    assert u == s[a + m..a + m + |t|];
  }

  /** Every character of an occurring string occurs. */
  lemma CharOfOccurrence(s: string, t: string, c: char)
    ensures Contains(s, t) && c in t ==> c in s
  {
    if Contains(s, t) && c in t {
      var i :| 0 <= i <= |s| && OccursAt(s, t, i);
      var k :| 0 <= k < |t| && t[k] == c;
      assert s[i + k] == t[k];
    }
  }

  /** The character at offset `k` of an occurrence belongs to the occurring string. */
  lemma CharOfOccurrenceAt(s: string, t: string, i: nat, k: nat)
    requires OccursAt(s, t, i) && k < |t|
    ensures s[i + k] == t[k] && s[i + k] in t
  {
    assert s[i + k] == s[i..i + |t|][k];
  }

  /**
   * A string without spaces that occurs in `a + b`, where `a` ends in a
   * space, occurs in `a` or in `b`: no occurrence can straddle the space.
   */
  lemma ContainsAcrossSpace(a: string, b: string, t: string)
    requires |a| > 0 && a[|a| - 1] == ' ' && ' ' !in t
    requires Contains(a + b, t)
    ensures Contains(a, t) || Contains(b, t)
  {
    var s := a + b;
    var i :| 0 <= i <= |s| && OccursAt(s, t, i);
    if i + |t| <= |a| {
      assert OccursAt(a, t, i) by { assert a[i..i + |t|] == s[i..i + |t|]; }
    } else if i >= |a| {
      assert OccursAt(b, t, i - |a|) by { assert b[i - |a|..i - |a| + |t|] == s[i..i + |t|]; }
    } else {
      CharOfOccurrenceAt(s, t, i, |a| - 1 - i);
      assert false;
    }
  }

  /**
   * Character-by-character forms of the two predicates above, which the
   * verifier can evaluate on short string literals.
   */
  predicate MatchesAt(s: string, t: string, i: nat, k: nat)
    requires i + |t| <= |s| && k <= |t|
    decreases |t| - k
  {
    k == |t| || (s[i + k] == t[k] && MatchesAt(s, t, i, k + 1))
  }

  predicate OccursFrom(s: string, t: string, i: nat)
    decreases |s| - i
  {
    i + |t| <= |s| && (MatchesAt(s, t, i, 0) || OccursFrom(s, t, i + 1))
  }

  lemma {:induction false} MatchesAtSlice(s: string, t: string, i: nat, k: nat)
    requires i + |t| <= |s| && k <= |t|
    ensures MatchesAt(s, t, i, k) <==> s[i + k..i + |t|] == t[k..]
    decreases |t| - k
  {
    if k < |t| {
      MatchesAtSlice(s, t, i, k + 1);
      assert s[i + k..i + |t|] == [s[i + k]] + s[i + k + 1..i + |t|];
      assert t[k..] == [t[k]] + t[k + 1..];
    }
  }

  lemma {:induction false} OccursFromContains(s: string, t: string, i: nat)
    ensures !OccursFrom(s, t, i) ==> forall j: nat :: i <= j ==> !OccursAt(s, t, j)
    decreases |s| - i
  {
    if i + |t| <= |s| {
      MatchesAtSlice(s, t, i, 0);
      OccursFromContains(s, t, i + 1);
    }
  }

  /** The first index at or after `from` where `c` occurs (`s.find(c, from)`). */
  function FindChar(s: string, c: char, from: nat): (r: Option<nat>)
    ensures r.Some? ==> from <= r.value < |s| && s[r.value] == c
    ensures r.Some? ==> forall k :: from <= k < r.value ==> s[k] != c
    ensures r.None? ==> forall k :: from <= k < |s| ==> s[k] != c
    decreases |s| - from
  {
    if from >= |s| then None
    else if s[from] == c then Some(from)
    else FindChar(s, c, from + 1)
  }

  /** The first index at or after `from` where `t` occurs (`s.find(t, from)`). */
  function FindFrom(s: string, t: string, from: nat): (r: Option<nat>)
    ensures r.Some? ==> from <= r.value && OccursAt(s, t, r.value)
    ensures r.Some? ==> forall k: nat :: from <= k < r.value ==> !OccursAt(s, t, k)
    ensures r.None? ==> forall k: nat :: from <= k ==> !OccursAt(s, t, k)
    decreases |s| - from
  {
    if from + |t| > |s| then None
    else if OccursAt(s, t, from) then Some(from)
    else FindFrom(s, t, from + 1)
  }

  /** Cut at its first `c`, a text that starts with `a` followed by a `c` gives `a` when `a` has no `c`. */
  lemma BeforeFirst(a: string, b: string, c: char)
    requires c !in a && b != [] && b[0] == c
    ensures Before(a + b, c) == a
  {
    var s := a + b;
    assert s[|a|] == c;
    assert forall k :: 0 <= k < |a| ==> s[k] == a[k];
    assert s[..|a|] == a;
  }

  /** `s.split(c, 1)[0]`: everything before the first `c`. */
  function Before(s: string, c: char): (r: string)
    ensures c !in r
    ensures StartsWith(s, r)
    ensures c !in s ==> r == s
  {
    match FindChar(s, c, 0)
    case None => s
    case Some(i) => s[..i]
  }
}

=== FILE: syft_parser.dfy ===
/**
 * `SyftParser`: the reading of the scanner's template output, one package
 * per line `name:version:purl - licenses`, and the splitting of the license
 * text into license names.
 *
 * The three regular expressions of the parser are written out as scanners:
 * the line pattern `^(.+?):(.+?):(.*?) - ?(.*)$` (`MatchLine`), the comma
 * separator `,\s*(?![Vv]ersion\b)` (`SplitLicenseText`) and the URL pattern
 * `https?://\S+` (`RemoveUrls`).
 */
module SyftParser {
  import opened Wrappers
  import opened Strings
  import opened LicenseMapper
  import opened Domain

  // ---------------------------------------------------------------------
  // Lines
  // ---------------------------------------------------------------------

  /** The first index at or after `from` holding a line break, or `|s|`. */
  function LineEnd(s: string, from: nat): (e: nat)
    requires from <= |s|
    ensures from <= e <= |s|
    ensures e < |s| ==> IsLineBreak(s[e])
    ensures forall k :: from <= k < e ==> !IsLineBreak(s[k])
    decreases |s| - from
  {
    if from == |s| || IsLineBreak(s[from]) then from else LineEnd(s, from + 1)
  }

  /**
   * `s.splitlines()`, up to empty lines: every line-break character ends a
   * line, so `\r\n` and a final break give an extra empty line, which the
   * parser skips like any blank line.
   */
  function Lines(s: string): (ls: seq<string>)
    ensures |ls| >= 1
    decreases |s|
  {
    var e := LineEnd(s, 0);
    if e == |s| then [s] else [s[..e]] + Lines(s[e + 1..])
  }

  /** The characters of `s` other than line breaks, in order. */
  function DropBreaks(s: string): string
    decreases |s|
  {
    if s == [] then []
    else DropBreaks(s[..|s| - 1]) + (if IsLineBreak(s[|s| - 1]) then [] else [s[|s| - 1]])
  }

  function Concat(ls: seq<string>): string
    decreases |ls|
  {
    if ls == [] then [] else ls[0] + Concat(ls[1..])
  }

  lemma {:induction false} DropBreaksAppend(a: string, b: string)
    ensures DropBreaks(a + b) == DropBreaks(a) + DropBreaks(b)
    decreases |b|
  {
    if b == [] {
      assert a + b == a;
    } else {
      var b' := b[..|b| - 1];
      assert (a + b)[..|a + b| - 1] == a + b';
      DropBreaksAppend(a, b');
    }
  }

  lemma {:induction false} DropBreaksOfLine(s: string)
    requires forall k :: 0 <= k < |s| ==> !IsLineBreak(s[k])
    ensures DropBreaks(s) == s
    decreases |s|
  {
    if s != [] {
      DropBreaksOfLine(s[..|s| - 1]);
    }
  }

  /** No line holds a line break. */
  lemma {:induction false} LinesHaveNoBreaks(s: string)
    ensures forall l :: l in Lines(s) ==> forall k :: 0 <= k < |l| ==> !IsLineBreak(l[k])
    decreases |s|
  {
    var e := LineEnd(s, 0);
    if e < |s| {
      LinesHaveNoBreaks(s[e + 1..]);
    }
  }

  /** The lines together hold every character of the text that is not a line break, in order. */
  lemma {:induction false} LinesKeepText(s: string)
    ensures Concat(Lines(s)) == DropBreaks(s)
    decreases |s|
  {
    var e := LineEnd(s, 0);
    if e == |s| {
      DropBreaksOfLine(s);
      assert Concat([s]) == s + Concat([]);
    } else {
      var rest := s[e + 1..];
      LinesKeepText(rest);
      ConcatCons(s[..e], Lines(rest));
      BreakThenRest(s, e);
    }
  }

  lemma {:induction false} ConcatCons(l: string, ls: seq<string>)
    ensures Concat([l] + ls) == l + Concat(ls)
  {
    assert ([l] + ls)[1..] == ls;
  }

  /** Dropping the breaks of a text whose first break is at `e`. */
  lemma {:induction false} BreakThenRest(s: string, e: nat)
    requires e < |s| && IsLineBreak(s[e])
    requires forall k :: 0 <= k < e ==> !IsLineBreak(s[k])
    ensures DropBreaks(s) == s[..e] + DropBreaks(s[e + 1..])
  {
    var line := s[..e];
    var head := line + [s[e]];
    DropBreaksOfLine(line);
    assert head[..|head| - 1] == line;
    assert DropBreaks(head) == line;
    assert s == head + s[e + 1..];
    DropBreaksAppend(head, s[e + 1..]);
  }

  // ---------------------------------------------------------------------
  // The line pattern
  // ---------------------------------------------------------------------

  /** The four groups of the line pattern. */
  datatype Groups = Groups(name: string, version: string, purl: string, text: string)

  /**
   * The line pattern holds of `line`: some ':' after at least one character,
   * a second ':' at least two characters later, and then " -".
   */
  predicate MatchesShape(line: string) {
    exists i, j, k ::
      1 <= i && i + 2 <= j && j + 1 <= k && k + 2 <= |line| &&
      line[i] == ':' && line[j] == ':' && OccursAt(line, " -", k)
  }

  /**
   * `PACKAGE_PATTERN.match(line)` on a line without '\n'. The lazy groups
   * take the leftmost choice at each step, and a later step never fails
   * for a choice that an earlier one could have made longer, so the match
   * is the first ':' from index 1, the first ':' two characters after it
   * and the first " -" after that; an optional space, then the rest.
   */
  function MatchLine(line: string): Option<Groups> {
    match MatchPositions(line)
    case None => None
    case Some(p) => Some(GroupsAt(line, p.0, p.1, p.2))
  }

  /** The colons at `i` and `j` and the " -" at `k` make a match of the pattern. */
  predicate PatternAt(line: string, i: nat, j: nat, k: nat) {
    && 1 <= i && i + 2 <= j && j < k && k + 2 <= |line|
    && line[i] == ':' && line[j] == ':' && OccursAt(line, " -", k)
  }

  /** No ':' or " -" earlier than the chosen ones could have been taken. */
  predicate LeftmostAt(line: string, i: nat, j: nat, k: nat) {
    && i < j < |line|
    && (forall m :: 1 <= m < i ==> line[m] != ':')
    && (forall m :: i + 2 <= m < j ==> line[m] != ':')
    && (forall m: nat :: j + 1 <= m < k ==> !OccursAt(line, " -", m))
  }

  /** The positions the lazy groups settle on: the two colons and the " -". */
  function MatchPositions(line: string): (r: Option<(nat, nat, nat)>)
    ensures r.Some? ==> PatternAt(line, r.value.0, r.value.1, r.value.2)
  {
    match FindChar(line, ':', 1)
    case None => None
    case Some(i) =>
      match FindChar(line, ':', i + 2)
      case None => None
      case Some(j) =>
        match FindFrom(line, " -", j + 1)
        case None => None
        case Some(k) => Some((i, j, k))
  }

  /** The groups of a match whose two colons are at `i` and `j` and whose " -" is at `k`. */
  function GroupsAt(line: string, i: nat, j: nat, k: nat): Groups
    requires i < j < k && k + 2 <= |line|
  {
    var rest := line[k + 2..];
    Groups(line[..i], line[i + 1..j], line[j + 1..k],
           if rest != [] && rest[0] == ' ' then rest[1..] else rest)
  }

  /**
   * The groups put back together are the line: the separator " -" is
   * followed by at most one space, which the last group does not hold.
   */
  predicate RebuildsLine(line: string, g: Groups) {
    || line == g.name + ":" + g.version + ":" + g.purl + " - " + g.text
    || (line == g.name + ":" + g.version + ":" + g.purl + " -" + g.text && (g.text == [] || g.text[0] != ' '))
  }

  /**
   * The groups the lazy quantifiers choose: a non-empty name and a
   * non-empty version, neither with ':' after its first character, and a
   * purl without " -".
   */
  predicate LeftmostGroups(g: Groups) {
    && |g.name| >= 1 && ':' !in g.name[1..]
    && |g.version| >= 1 && ':' !in g.version[1..]
    && !Contains(g.purl, " -")
  }

  lemma GroupsAtRebuild(line: string, i: nat, j: nat, k: nat)
    requires PatternAt(line, i, j, k)
    ensures RebuildsLine(line, GroupsAt(line, i, j, k))
  {
    var rest := line[k + 2..];
    assert line[k..k + 2] == " -";
    assert line[..i + 1] == line[..i] + ":";
    assert line[..j] == line[..i + 1] + line[i + 1..j];
    assert line[..j + 1] == line[..j] + ":";
    assert line[..k] == line[..j + 1] + line[j + 1..k];
    assert line[..k + 2] == line[..k] + " -";
    assert line == line[..k + 2] + rest;
    if rest != [] && rest[0] == ' ' {
      assert rest == " " + rest[1..];
    }
  }

  /** No earlier colon or separator than the ones found. */
  lemma MatchPositionsLeftmost(line: string)
    requires MatchPositions(line).Some?
    ensures var p := MatchPositions(line).value; LeftmostAt(line, p.0, p.1, p.2)
  {
    var i := FindChar(line, ':', 1).value;
    var j := FindChar(line, ':', i + 2).value;
    assert FindFrom(line, " -", j + 1).Some?;
  }

  /** The scanner matches exactly the lines of the pattern's shape. */
  lemma MatchLineIffShape(line: string)
    ensures MatchLine(line).Some? <==> MatchesShape(line)
  {
    if MatchesShape(line) {
      var i0, j0, k0 :| 1 <= i0 && i0 + 2 <= j0 && j0 + 1 <= k0 && k0 + 2 <= |line| &&
        line[i0] == ':' && line[j0] == ':' && OccursAt(line, " -", k0);
      var i :| FindChar(line, ':', 1) == Some(i);
      assert i <= i0;
      var j :| FindChar(line, ':', i + 2) == Some(j);
      assert j <= j0;
      assert FindFrom(line, " -", j + 1).Some?;
    }
    if MatchLine(line).Some? {
      var p := MatchPositions(line).value;
      assert PatternAt(line, p.0, p.1, p.2);
    }
  }

  /**
   * The groups put back together are the line: the separator " -" is
   * followed by at most one space, which the last group does not hold.
   */
  lemma MatchLineRebuilds(line: string)
    requires MatchLine(line).Some?
    ensures RebuildsLine(line, MatchLine(line).value)
  {
    var p := MatchPositions(line).value;
    GroupsAtRebuild(line, p.0, p.1, p.2);
  }

  /**
   * The groups are the leftmost ones: a non-empty name and a non-empty
   * version, neither with ':' after its first character, and a purl
   * without " -".
   */
  lemma MatchLineLeftmost(line: string)
    requires MatchLine(line).Some?
    ensures LeftmostGroups(MatchLine(line).value)
  {
    var p := MatchPositions(line).value;
    MatchPositionsLeftmost(line);
    GroupsAtLeftmost(line, p.0, p.1, p.2);
  }

  lemma GroupsAtLeftmost(line: string, i: nat, j: nat, k: nat)
    requires PatternAt(line, i, j, k) && LeftmostAt(line, i, j, k)
    ensures LeftmostGroups(GroupsAt(line, i, j, k))
  {
    var g := GroupsAt(line, i, j, k);
    assert ':' !in g.name[1..] by {
      forall m | 0 <= m < |g.name[1..]|
        ensures g.name[1..][m] != ':'
      {
        assert g.name[1..][m] == line[1 + m];
      }
    }
    assert ':' !in g.version[1..] by {
      forall m | 0 <= m < |g.version[1..]|
        ensures g.version[1..][m] != ':'
      {
        assert g.version[1..][m] == line[i + 2 + m];
      }
    }
    if Contains(g.purl, " -") {
      var m :| 0 <= m <= |g.purl| && OccursAt(g.purl, " -", m);
      OccursInSlice(line, " -", j + 1, k, m);
      assert false;
    }
  }

  // ---------------------------------------------------------------------
  // The comma separator
  // ---------------------------------------------------------------------

  /** `[Vv]ersion\b` at index `q`. */
  predicate VersionWordAt(t: string, q: nat) {
    && q + 7 <= |t|
    && (t[q] == 'V' || t[q] == 'v')
    && t[q + 1..q + 7] == "ersion"
    && (q + 7 == |t| || !IsWordChar(t[q + 7]))
  }

  /** The first index at or after `from` that is not whitespace, or `|t|`. */
  function RunEnd(t: string, from: nat): (e: nat)
    requires from <= |t|
    ensures from <= e <= |t|
    ensures e < |t| ==> !IsSpace(t[e])
    ensures forall k :: from <= k < e ==> IsSpace(t[k])
    decreases |t| - from
  {
    if from == |t| || !IsSpace(t[from]) then from else RunEnd(t, from + 1)
  }

  /**
   * Where the separator `,\s*(?![Vv]ersion\b)` that starts at the comma at
   * `p` ends, if it matches there. `\s*` first takes the whole run of
   * whitespace; when `[Vv]ersion\b` follows the run, it gives back one
   * character, after which the look-ahead sees whitespace and succeeds. Only
   * with no whitespace to give back does the separator fail.
   */
  function SeparatorEnd(t: string, p: nat): (r: Option<nat>)
    requires p < |t| && t[p] == ','
    ensures r.Some? ==> p < r.value <= |t|
    ensures r.Some? ==> !VersionWordAt(t, r.value) && forall k :: p < k < r.value ==> IsSpace(t[k])
  {
    var e := RunEnd(t, p + 1);
    if !VersionWordAt(t, e) then Some(e)
    else if e > p + 1 then Some(e - 1)
    else None
  }

  /** A comma separates exactly when `[Vv]ersion\b` does not follow it directly. */
  lemma SeparatorUnlessVersion(t: string, p: nat)
    requires p < |t| && t[p] == ','
    ensures SeparatorEnd(t, p).Some? <==> !VersionWordAt(t, p + 1)
  {
    var e := RunEnd(t, p + 1);
    if e > p + 1 {
      assert IsSpace(t[p + 1]);
    }
  }

  /**
   * The separator is the longest match of `,\s*` at `p` at whose end the
   * look-ahead succeeds, and there is none only when every such candidate
   * ends right before `[Vv]ersion\b`.
   */
  lemma SeparatorIsLongest(t: string, p: nat, e: nat)
    requires p < |t| && t[p] == ','
    requires p < e <= |t| && forall k :: p < k < e ==> IsSpace(t[k])
    ensures SeparatorEnd(t, p).Some? && SeparatorEnd(t, p).value < e ==> VersionWordAt(t, e)
    ensures SeparatorEnd(t, p).None? ==> VersionWordAt(t, e)
  {
  }

  /** A comma at which the text is split. */
  predicate Splits(t: string, p: nat) {
    p < |t| && t[p] == ',' && !VersionWordAt(t, p + 1)
  }

  /**
   * `re.split` of `t[start..]`, the current part having begun at `start` and
   * the search for the next separator having reached `q`.
   */
  function SplitFrom(t: string, start: nat, q: nat): (parts: seq<string>)
    requires start <= q <= |t|
    ensures |parts| >= 1
    decreases |t| - q
  {
    if q == |t| then [t[start..]]
    else if t[q] == ',' && SeparatorEnd(t, q).Some? then
      var e := SeparatorEnd(t, q).value;
      [t[start..q]] + SplitFrom(t, e, e)
    else SplitFrom(t, start, q + 1)
  }

  /** `re.split(r',\s*(?![Vv]ersion\b)', t)`. */
  function SplitLicenseText(t: string): seq<string> {
    SplitFrom(t, 0, 0)
  }

  /** The splitting commas at or after `q`, in increasing order. */
  function SplittingCommas(t: string, q: nat): (ps: seq<nat>)
    ensures forall i :: 0 <= i < |ps| ==> q <= ps[i] < |t| && Splits(t, ps[i])
    decreases |t| - q
  {
    if q >= |t| then [] else (if Splits(t, q) then [q] else []) + SplittingCommas(t, q + 1)
  }

  /** Every splitting comma at or after `q` is listed. */
  lemma {:induction false} SplittingCommasComplete(t: string, q: nat)
    ensures forall p :: q <= p < |t| && Splits(t, p) ==> p in SplittingCommas(t, q)
    decreases |t| - q
  {
    if q < |t| {
      SplittingCommasComplete(t, q + 1);
      var rest := SplittingCommas(t, q + 1);
      if Splits(t, q) {
        assert SplittingCommas(t, q) == [q] + rest;
      } else {
        assert SplittingCommas(t, q) == rest;
      }
    }
  }

  /** The splitting commas are listed in strictly increasing order. */
  lemma {:induction false} SplittingCommasIncreasing(t: string, q: nat)
    ensures forall i, j :: 0 <= i < j < |SplittingCommas(t, q)| ==> SplittingCommas(t, q)[i] < SplittingCommas(t, q)[j]
    decreases |t| - q
  {
    if q < |t| {
      SplittingCommasIncreasing(t, q + 1);
      var rest := SplittingCommas(t, q + 1);
      var ps := SplittingCommas(t, q);
      if Splits(t, q) {
        assert ps == [q] + rest;
        ConsIncreasing(q, rest);
      } else {
        assert ps == rest;
      }
    }
  }

  /** A position below every one of an increasing list, put in front, keeps it increasing. */
  lemma ConsIncreasing(q: nat, rest: seq<nat>)
    requires forall k :: 0 <= k < |rest| ==> q < rest[k]
    requires forall i, j :: 0 <= i < j < |rest| ==> rest[i] < rest[j]
    ensures forall i, j :: 0 <= i < j < |[q] + rest| ==> ([q] + rest)[i] < ([q] + rest)[j]
  {
    var ps := [q] + rest;
    forall i, j | 0 <= i < j < |ps|
      ensures ps[i] < ps[j]
    {
      assert ps[j] == rest[j - 1];
      if i > 0 {
        assert ps[i] == rest[i - 1];
      }
    }
  }

  /** The end of the separator at a splitting comma. */
  function SeparatorStop(t: string, p: nat): (e: nat)
    requires Splits(t, p)
    ensures p < e <= |t|
  {
    SeparatorUnlessVersion(t, p);
    SeparatorEnd(t, p).value
  }

  /**
   * Part `i` of a split that began at `start`, given the splitting commas
   * `ps`: the text from the end of the separator before it (or `start`) up
   * to the next splitting comma (or the end of the text).
   */
  ghost predicate PartAt(t: string, start: nat, ps: seq<nat>, i: nat, part: string) {
    && i <= |ps|
    && (i > 0 ==> Splits(t, ps[i - 1]))
    && (i < |ps| ==> ps[i] <= |t|)
    && var a := if i == 0 then start else SeparatorStop(t, ps[i - 1]);
       var b := if i < |ps| then ps[i] else |t|;
       a <= b <= |t| && part == t[a..b]
  }

  lemma {:induction false} NoSplittingBetween(t: string, a: nat, b: nat)
    requires a <= b <= |t|
    requires forall k :: a <= k < b ==> t[k] != ','
    ensures SplittingCommas(t, a) == SplittingCommas(t, b)
    decreases b - a
  {
    if a < b {
      NoSplittingBetween(t, a + 1, b);
    }
  }

  lemma {:induction false} SplitFromParts(t: string, start: nat, q: nat)
    requires start <= q <= |t|
    ensures var ps := SplittingCommas(t, q); var parts := SplitFrom(t, start, q);
      |parts| == |ps| + 1 && forall i :: 0 <= i < |parts| ==> PartAt(t, start, ps, i, parts[i])
    decreases |t| - q
  {
    if q < |t| {
      if t[q] == ',' {
        SeparatorUnlessVersion(t, q);
      }
      if Splits(t, q) {
        var e := SeparatorStop(t, q);
        SplitFromParts(t, e, e);
        SplitPartsAtComma(t, start, q, SplittingCommas(t, e), SplitFrom(t, e, e));
      } else {
        SplitFromParts(t, start, q + 1);
        assert SplittingCommas(t, q) == SplittingCommas(t, q + 1);
        assert SplitFrom(t, start, q) == SplitFrom(t, start, q + 1);
      }
    } else {
      assert PartAt(t, start, [], 0, t[start..]);
    }
  }

  /** The split through a splitting comma: its part up to the comma, then the split after the separator. */
  lemma SplitPartsAtComma(t: string, start: nat, q: nat, ps': seq<nat>, rest: seq<string>)
    requires start <= q < |t| && Splits(t, q)
    requires ps' == SplittingCommas(t, SeparatorStop(t, q))
    requires rest == SplitFrom(t, SeparatorStop(t, q), SeparatorStop(t, q))
    requires |rest| == |ps'| + 1 && forall i :: 0 <= i < |rest| ==> PartAt(t, SeparatorStop(t, q), ps', i, rest[i])
    ensures var ps := SplittingCommas(t, q); var parts := SplitFrom(t, start, q);
      |parts| == |ps| + 1 && forall i :: 0 <= i < |parts| ==> PartAt(t, start, ps, i, parts[i])
  {
    SplitAtComma(t, start, q);
    var ps := [q] + ps';
    var parts := [t[start..q]] + rest;
    assert SplittingCommas(t, q) == ps && SplitFrom(t, start, q) == parts;
    assert |parts| == |ps| + 1;
    assert PartAt(t, start, ps, 0, parts[0]);
    forall i | 0 < i < |parts|
      ensures PartAt(t, start, ps, i, parts[i])
    {
      PartAtShift(t, start, q, ps', i - 1, rest[i - 1]);
    }
  }

  /** At a splitting comma, the part before it is cut off and the split resumes after the separator. */
  lemma SplitAtComma(t: string, start: nat, q: nat)
    requires start <= q < |t| && Splits(t, q)
    ensures SplittingCommas(t, q) == [q] + SplittingCommas(t, SeparatorStop(t, q))
    ensures SplitFrom(t, start, q) == [t[start..q]] + SplitFrom(t, SeparatorStop(t, q), SeparatorStop(t, q))
  {
    SeparatorUnlessVersion(t, q);
    NoSplittingBetween(t, q + 1, SeparatorStop(t, q));
  }

  /** A part after the separator at `q` is the next part of the split that runs through `q`. */
  lemma PartAtShift(t: string, start: nat, q: nat, ps: seq<nat>, i: nat, part: string)
    requires Splits(t, q) && start <= q && PartAt(t, SeparatorStop(t, q), ps, i, part)
    ensures PartAt(t, start, [q] + ps, i + 1, part)
  {
    assert ([q] + ps)[i] == if i == 0 then q else ps[i - 1];
  }

  /**
   * `re.split` by contents: there is one part more than there are splitting
   * commas, and each part is the text between the end of one separator (or
   * the start) and the next splitting comma (or the end).
   */
  lemma SplitParts(t: string)
    ensures var ps := SplittingCommas(t, 0); var parts := SplitLicenseText(t);
      |parts| == |ps| + 1 && forall i :: 0 <= i < |parts| ==> PartAt(t, 0, ps, i, parts[i])
  {
    SplitFromParts(t, 0, 0);
  }

  /** There is one part more than there are commas not directly followed by `[Vv]ersion\b`. */
  lemma SplitCount(t: string)
    ensures |SplitLicenseText(t)| == 1 + |SplittingCommas(t, 0)|
  {
    SplitParts(t);
  }

  /** Every comma of `part` is directly followed by `[Vv]ersion\b`. */
  predicate CommasProtected(part: string) {
    forall m :: 0 <= m < |part| && part[m] == ',' ==> VersionWordAt(part, m + 1)
  }

  /** A comma protected in the text is protected in a part that ends at a comma or the end. */
  lemma {:induction false} ProtectedInPart(t: string, start: nat, q: nat, p: nat)
    requires start <= p < q <= |t| && t[p] == ',' && VersionWordAt(t, p + 1)
    requires q == |t| || t[q] == ','
    ensures VersionWordAt(t[start..q], p - start + 1)
  {
    var part := t[start..q];
    var m := p - start;
    forall x | p + 1 <= x < p + 8
      ensures t[x] != ','
    {
      if x > p + 1 {
        assert t[x] == t[p + 2..p + 8][x - p - 2];
      }
    }
    assert p + 8 <= q;
    assert part[m + 1] == t[p + 1];
    forall y | m + 2 <= y < m + 8
      ensures part[y] == t[start + y]
    {
    }
    assert part[m + 2..m + 8] == t[p + 2..p + 8];
    if m + 8 < |part| {
      assert part[m + 8] == t[p + 8];
    }
  }

  lemma {:induction false} SplitFromProtected(t: string, start: nat, q: nat)
    requires start <= q <= |t|
    requires forall p :: start <= p < q && t[p] == ',' ==> VersionWordAt(t, p + 1)
    ensures forall part :: part in SplitFrom(t, start, q) ==> CommasProtected(part)
    decreases |t| - q
  {
    if q == |t| || (t[q] == ',' && SeparatorEnd(t, q).Some?) {
      var part := t[start..q];
      forall m | 0 <= m < |part| && part[m] == ','
        ensures VersionWordAt(part, m + 1)
      {
        ProtectedInPart(t, start, q, start + m);
      }
      if q < |t| {
        SplitFromProtected(t, SeparatorEnd(t, q).value, SeparatorEnd(t, q).value);
      }
    } else {
      if t[q] == ',' {
        SeparatorUnlessVersion(t, q);
      }
      SplitFromProtected(t, start, q + 1);
    }
  }

  /** A comma is left inside a part only when `[Vv]ersion\b` follows it directly. */
  lemma PartsKeepOnlyVersionCommas(t: string)
    ensures forall part :: part in SplitLicenseText(t) ==> CommasProtected(part)
  {
    SplitFromProtected(t, 0, 0);
  }

  lemma {:induction false} SplitFromWithoutSplitting(t: string, start: nat, q: nat)
    requires start <= q <= |t|
    requires forall p :: q <= p < |t| ==> !Splits(t, p)
    ensures SplitFrom(t, start, q) == [t[start..]]
    decreases |t| - q
  {
    if q < |t| {
      assert !Splits(t, q);
      if t[q] == ',' {
        SeparatorUnlessVersion(t, q);
      }
      SplitFromWithoutSplitting(t, start, q + 1);
    }
  }

  /** A text without a splitting comma is one part. */
  lemma UnsplitText(t: string)
    requires forall p :: 0 <= p < |t| ==> !Splits(t, p)
    ensures SplitLicenseText(t) == [t]
  {
    SplitFromWithoutSplitting(t, 0, 0);
  }

  /**
   * The comment of the splitter promises to keep "Version X.X" with its
   * license; the whitespace after the comma lets the separator match anyway.
   */
  lemma VersionAfterSpaceIsSplit()
    ensures SplitLicenseText(EplText) == ["EPL", " Version 2.0"]
  {
    var t := EplText;
    EplFirstPart();
    EplRestUnsplit();
    SplitFromWithoutSplitting(t, 4, 4);
    assert t[4..] == " Version 2.0";
  }

  lemma EplFirstPart()
    ensures SplitFrom(EplText, 0, 0) == ["EPL"] + SplitFrom(EplText, 4, 4)
  {
    var t := EplText;
    EplSeparator();
    assert t[0] != ',' && t[1] != ',' && t[2] != ',';
    assert SplitFrom(t, 0, 0) == SplitFrom(t, 0, 1) == SplitFrom(t, 0, 2) == SplitFrom(t, 0, 3);
    assert t[..3] == "EPL";
  }

  lemma EplRestUnsplit()
    ensures forall p :: 4 <= p < |EplText| ==> !Splits(EplText, p)
  {
    var t := EplText;
    forall p | 4 <= p < |t|
      ensures t[p] != ','
    {
    }
  }

  const EplText: string := "EPL, Version 2.0"

  lemma EplSeparator()
    ensures EplText[3] == ',' && SeparatorEnd(EplText, 3) == Some(4)
  {
    var t := EplText;
    assert IsSpace(t[4]) && !IsSpace(t[5]);
    assert RunEnd(t, 4) == 5 by {
      assert RunEnd(t, 5) == 5;
    }
    assert t[6] == 'e' && t[7] == 'r' && t[8] == 's' && t[9] == 'i' && t[10] == 'o' && t[11] == 'n';
    assert t[6..12] == "ersion";
    assert VersionWordAt(t, 5);
  }

  // ---------------------------------------------------------------------
  // URL removal
  // ---------------------------------------------------------------------

  /** The first index at or after `from` that is whitespace, or `|t|`: the end of the `\S+` run. */
  function TokenEnd(t: string, from: nat): (e: nat)
    requires from <= |t|
    ensures from <= e <= |t|
    ensures e < |t| ==> IsSpace(t[e])
    ensures forall k :: from <= k < e ==> !IsSpace(t[k])
    decreases |t| - from
  {
    if from == |t| || IsSpace(t[from]) then from else TokenEnd(t, from + 1)
  }

  /** The length of the match of `https?://\S+` at `q`, or 0 when there is none. */
  function UrlLength(s: string, q: nat): (n: nat)
    requires q <= |s|
    ensures n > 0 ==> q + n <= |s| && s[q] == 'h'
  {
    if OccursAt(s, "https://", q) && TokenEnd(s, q + 8) > q + 8 then
      assert s[q] == s[q..q + 8][0];
      TokenEnd(s, q + 8) - q
    else if OccursAt(s, "http://", q) && TokenEnd(s, q + 7) > q + 7 then
      assert s[q] == s[q..q + 7][0];
      TokenEnd(s, q + 7) - q
    else 0
  }

  /** A match of `https?://\S+` starts at `q`: a scheme followed by at least one non-space character. */
  predicate UrlStartsAt(s: string, q: nat) {
    || (OccursAt(s, "https://", q) && q + 8 < |s| && !IsSpace(s[q + 8]))
    || (OccursAt(s, "http://", q) && q + 7 < |s| && !IsSpace(s[q + 7]))
  }

  /**
   * `s[q..q + n]` is the greedy match of `https?://\S+` at `q`: a scheme,
   * then non-space characters up to a space or the end of `s`.
   */
  predicate UrlMatchAt(s: string, q: nat, n: nat) {
    && q + n <= |s|
    && ((OccursAt(s, "https://", q) && n > 8) || (OccursAt(s, "http://", q) && n > 7))
    && (forall k :: q <= k < q + n ==> !IsSpace(s[k]))
    && (q + n == |s| || IsSpace(s[q + n]))
  }

  /**
   * `UrlLength` is the scheme plus the longest run of non-space characters
   * after it: it is positive exactly where a match starts, and then it is
   * the one length that makes a whole match.
   */
  lemma UrlLengthIsMatch(s: string, q: nat)
    requires q <= |s|
    ensures UrlLength(s, q) > 0 <==> UrlStartsAt(s, q)
    ensures forall n :: UrlMatchAt(s, q, n) <==> n > 0 && n == UrlLength(s, q)
  {
    if OccursAt(s, "https://", q) {
      forall k | q <= k < q + 8
        ensures !IsSpace(s[k])
      {
        CharOfOccurrenceAt(s, "https://", q, k - q);
      }
    }
    if OccursAt(s, "http://", q) {
      forall k | q <= k < q + 7
        ensures !IsSpace(s[k])
      {
        CharOfOccurrenceAt(s, "http://", q, k - q);
      }
      assert s[q + 4] == ':' by {
        CharOfOccurrenceAt(s, "http://", q, 4);
      }
      assert !OccursAt(s, "https://", q) by {
        if OccursAt(s, "https://", q) {
          CharOfOccurrenceAt(s, "https://", q, 4);
        }
      }
    }
  }

  /** Whether a match starts at `j + 1` of `[c] + x` depends only on `x` from `j`. */
  lemma UrlStartsAtShift(c: char, x: string, j: nat)
    requires j <= |x|
    ensures UrlStartsAt([c] + x, j + 1) <==> UrlStartsAt(x, j)
  {
    var y := [c] + x;
    forall t: string | j + |t| <= |x|
      ensures OccursAt(y, t, j + 1) <==> OccursAt(x, t, j)
    {
      assert y[j + 1..j + 1 + |t|] == x[j..j + |t|];
    }
  }

  /** `re.sub(r'https?://\S+', '', s[q..])`. */
  function RemoveUrlsFrom(s: string, q: nat): (r: string)
    requires q <= |s|
    ensures |r| <= |s| - q
    decreases |s| - q
  {
    if q == |s| then []
    else if UrlLength(s, q) > 0 then RemoveUrlsFrom(s, q + UrlLength(s, q))
    else [s[q]] + RemoveUrlsFrom(s, q + 1)
  }

  function RemoveUrls(s: string): (r: string)
    ensures |r| <= |s|
  {
    RemoveUrlsFrom(s, 0)
  }

  lemma {:induction false} RemoveUrlsFromKeepsChars(s: string, q: nat)
    requires q <= |s|
    ensures forall c :: c in RemoveUrlsFrom(s, q) ==> c in s[q..]
    decreases |s| - q
  {
    if q < |s| {
      var n := UrlLength(s, q);
      RemoveUrlsFromKeepsChars(s, if n > 0 then q + n else q + 1);
      if n == 0 {
        assert s[q..] == [s[q]] + s[q + 1..];
      } else {
        assert forall c :: c in s[q + n..] ==> c in s[q..];
      }
    }
  }

  /** Where no match starts from `q` on, nothing is removed. */
  lemma {:induction false} RemoveUrlsFromWithoutUrl(s: string, q: nat)
    requires q <= |s| && forall k :: q <= k <= |s| ==> UrlLength(s, k) == 0
    ensures RemoveUrlsFrom(s, q) == s[q..]
    decreases |s| - q
  {
    if q < |s| {
      RemoveUrlsFromWithoutUrl(s, q + 1);
      assert s[q..] == [s[q]] + s[q + 1..];
    }
  }

  /**
   * The result of the removal from `q` starts with the text itself, `m`
   * characters of it, and then, if anything follows, with a space: a
   * removed match always ends at a space or at the end of the text.
   */
  lemma {:induction false} KeptPrefix(s: string, q: nat) returns (m: nat)
    requires q <= |s|
    ensures m <= |RemoveUrlsFrom(s, q)| && q + m <= |s|
    ensures RemoveUrlsFrom(s, q)[..m] == s[q..q + m]
    ensures m < |RemoveUrlsFrom(s, q)| ==> IsSpace(RemoveUrlsFrom(s, q)[m])
    decreases |s| - q
  {
    if q == |s| {
      m := 0;
    } else if UrlLength(s, q) > 0 {
      SpaceAfterUrl(s, q);
      m := 0;
    } else {
      var m' := KeptPrefix(s, q + 1);
      KeptPrefixCons(s, q, m');
      m := m' + 1;
    }
  }

  /** What is left after a removed match is empty or starts with a space. */
  lemma SpaceAfterUrl(s: string, q: nat)
    requires q < |s| && UrlLength(s, q) > 0
    ensures RemoveUrlsFrom(s, q) == [] || IsSpace(RemoveUrlsFrom(s, q)[0])
  {
    var e := q + UrlLength(s, q);
    UrlLengthIsMatch(s, q);
    assert UrlMatchAt(s, q, UrlLength(s, q));
    if e < |s| {
      assert IsSpace(s[e]);
      assert UrlLength(s, e) == 0;
      assert RemoveUrlsFrom(s, e) == [s[e]] + RemoveUrlsFrom(s, e + 1);
    }
  }

  /** A kept character extends the kept prefix of the rest by one. */
  lemma KeptPrefixCons(s: string, q: nat, m': nat)
    requires q < |s| && UrlLength(s, q) == 0
    requires m' <= |RemoveUrlsFrom(s, q + 1)| && q + 1 + m' <= |s|
    requires RemoveUrlsFrom(s, q + 1)[..m'] == s[q + 1..q + 1 + m']
    requires m' < |RemoveUrlsFrom(s, q + 1)| ==> IsSpace(RemoveUrlsFrom(s, q + 1)[m'])
    ensures m' + 1 <= |RemoveUrlsFrom(s, q)|
    ensures RemoveUrlsFrom(s, q)[..m' + 1] == s[q..q + m' + 1]
    ensures m' + 1 < |RemoveUrlsFrom(s, q)| ==> IsSpace(RemoveUrlsFrom(s, q)[m' + 1])
  {
    var r' := RemoveUrlsFrom(s, q + 1);
    assert RemoveUrlsFrom(s, q) == [s[q]] + r';
    assert ([s[q]] + r')[..m' + 1] == [s[q]] + r'[..m'];
    var a := s[q..q + m' + 1];
    assert a[0] == s[q] && a[1..] == s[q + 1..q + 1 + m'];
    assert a == [a[0]] + a[1..];
  }

  /**
   * A match at the head of a text that agrees with `s[q..]` up to a space
   * (or its end) is a match at `q` of `s`.
   */
  lemma HeadUrlWasThere(s: string, q: nat, r: string, m: nat)
    requires m <= |r| && q + m <= |s| && r[..m] == s[q..q + m]
    requires m < |r| ==> IsSpace(r[m])
    ensures UrlStartsAt(r, 0) ==> UrlStartsAt(s, q)
  {
    if OccursAt(r, "https://", 0) && 8 < |r| && !IsSpace(r[8]) {
      forall k | 0 <= k < 8
        ensures !IsSpace(r[k])
      {
        CharOfOccurrenceAt(r, "https://", 0, k);
      }
      SchemeCarriedOver(s, q, r, m, "https://");
    } else if OccursAt(r, "http://", 0) && 7 < |r| && !IsSpace(r[7]) {
      forall k | 0 <= k < 7
        ensures !IsSpace(r[k])
      {
        CharOfOccurrenceAt(r, "http://", 0, k);
      }
      SchemeCarriedOver(s, q, r, m, "http://");
    }
  }

  /**
   * A scheme and the non-space character after it, at the head of a text
   * that agrees with `s[q..]` up to a space, are found at `q` in `s`.
   */
  lemma SchemeCarriedOver(s: string, q: nat, r: string, m: nat, scheme: string)
    requires m <= |r| && q + m <= |s| && r[..m] == s[q..q + m]
    requires m < |r| ==> IsSpace(r[m])
    requires OccursAt(r, scheme, 0) && |scheme| < |r|
    requires forall k :: 0 <= k <= |scheme| ==> !IsSpace(r[k])
    ensures OccursAt(s, scheme, q) && q + |scheme| < |s| && !IsSpace(s[q + |scheme|])
  {
    if m <= |scheme| {
      assert false;
    }
    forall k | 0 <= k < m
      ensures r[k] == s[q + k]
    {
      assert r[..m][k] == r[k];
      assert s[q..q + m][k] == s[q + k];
    }
    assert r[..|scheme|] == scheme;
    assert s[q..q + |scheme|] == r[..|scheme|];
  }

  /** No match of `https?://\S+` is left anywhere in what the removal from `q` returns. */
  lemma {:induction false} RemoveUrlsFromLeavesNone(s: string, q: nat)
    requires q <= |s|
    ensures forall j :: 0 <= j <= |RemoveUrlsFrom(s, q)| ==> UrlLength(RemoveUrlsFrom(s, q), j) == 0
    decreases |s| - q
  {
    if q < |s| {
      var n := UrlLength(s, q);
      if n > 0 {
        RemoveUrlsFromLeavesNone(s, q + n);
      } else {
        RemoveUrlsFromLeavesNone(s, q + 1);
        var r := RemoveUrlsFrom(s, q);
        forall j | 0 <= j <= |r|
          ensures UrlLength(r, j) == 0
        {
          if j == 0 {
            KeptHeadStartsNoUrl(s, q);
          } else {
            KeptTailStartsNoUrl(s, q, RemoveUrlsFrom(s, q + 1), j);
          }
        }
      }
    }
  }

  /** Where a character is kept, no match starts at the head of what the removal returns. */
  lemma KeptHeadStartsNoUrl(s: string, q: nat)
    requires q < |s| && UrlLength(s, q) == 0
    ensures UrlLength(RemoveUrlsFrom(s, q), 0) == 0
  {
    var r := RemoveUrlsFrom(s, q);
    var m := KeptPrefix(s, q);
    HeadUrlWasThere(s, q, r, m);
    UrlLengthIsMatch(s, q);
    UrlLengthIsMatch(r, 0);
  }

  /** Behind a kept character, a match would have been one of the removal from the next position. */
  lemma KeptTailStartsNoUrl(s: string, q: nat, r': string, j: nat)
    requires q < |s| && UrlLength(s, q) == 0 && r' == RemoveUrlsFrom(s, q + 1)
    requires 0 < j <= |RemoveUrlsFrom(s, q)|
    requires forall i :: 0 <= i <= |r'| ==> UrlLength(r', i) == 0
    ensures UrlLength(RemoveUrlsFrom(s, q), j) == 0
  {
    var r := RemoveUrlsFrom(s, q);
    assert r == [s[q]] + r';
    assert UrlLength(r', j - 1) == 0;
    UrlStartsAtShift(s[q], r', j - 1);
    UrlLengthIsMatch(r', j - 1);
    UrlLengthIsMatch(r, j);
  }

  /** A text holding no `http://` and no `https://` holds no match. */
  lemma NoSchemeNoUrl(s: string)
    requires !Contains(s, "http://") && !Contains(s, "https://")
    ensures forall k :: 0 <= k <= |s| ==> UrlLength(s, k) == 0
  {
    forall k | 0 <= k <= |s|
      ensures UrlLength(s, k) == 0
    {
      if UrlLength(s, k) > 0 {
        UrlLengthIsMatch(s, k);
      }
    }
  }

  /**
   * Removing URLs only deletes characters, leaves no match behind, and
   * changes nothing in a text that holds no match.
   */
  lemma RemoveUrlsDeletes(s: string)
    ensures forall c :: c in RemoveUrls(s) ==> c in s
    ensures forall j :: 0 <= j <= |RemoveUrls(s)| ==> UrlLength(RemoveUrls(s), j) == 0
    ensures (forall k :: 0 <= k <= |s| ==> UrlLength(s, k) == 0) ==> RemoveUrls(s) == s
    ensures 'h' !in s ==> RemoveUrls(s) == s
  {
    RemoveUrlsFromKeepsChars(s, 0);
    RemoveUrlsFromLeavesNone(s, 0);
    if forall k :: 0 <= k <= |s| ==> UrlLength(s, k) == 0 {
      RemoveUrlsFromWithoutUrl(s, 0);
    }
    if 'h' !in s {
      RemoveUrlsFromWithoutUrl(s, 0);
    }
  }

  // ---------------------------------------------------------------------
  // License text
  // ---------------------------------------------------------------------

  /**
   * One part of the license text made a license name: stripped, URLs
   * removed, cut at the first ';', stripped again.
   */
  function CleanName(part: string): (r: string)
    ensures IsTrimmed(r) && ';' !in r
  {
    var cut := Before(RemoveUrls(Strip(part)), ';');
    StripIsInfix(cut);
    Strip(cut)
  }

  /** The licenses of the parts whose cleaned name is not empty, in order. */
  function CleanLicenses(parts: seq<string>): (r: seq<License>)
    ensures |r| <= |parts|
    decreases |parts|
  {
    if parts == [] then [] else CleanLicenses(parts[..|parts| - 1]) + PartLicenses(parts[|parts| - 1])
  }

  /** The license of one part, if its cleaned name is not empty. */
  function PartLicenses(part: string): (r: seq<License>)
    ensures |r| <= 1
  {
    var name := CleanName(part);
    if name != [] then [NewLicense(name, None)] else []
  }

  /**
   * `_parse_license_text`: nothing for an empty text or "-"; otherwise a
   * license per part with a non-empty cleaned name, its URL the canonical
   * URL of the name.
   */
  function LicenseTextSpec(text: string): (r: seq<License>)
    ensures text == [] || text == "-" ==> r == []
  {
    if text == [] || text == "-" then [] else CleanLicenses(SplitLicenseText(text))
  }

  /** The body of the loop of `_parse_license_text`: one part cleaned, kept when not empty. */
  method ReadPart(part: string) returns (r: seq<License>)
    ensures r == PartLicenses(part)
  {
    var clean := Strip(part);
    clean := RemoveUrls(clean);
    clean := Strip(Before(clean, ';'));
    if clean != [] {
      return [NewLicense(clean, None)];
    }
    return [];
  }

  /** The loop of `_parse_license_text` over the parts of the split text. */
  method ReadParts(parts: seq<string>) returns (licenses: seq<License>)
    ensures licenses == CleanLicenses(parts)
  {
    licenses := [];
    var k := 0;
    while k < |parts|
      invariant 0 <= k <= |parts|
      invariant licenses == CleanLicenses(parts[..k])
    {
      ghost var previous := licenses;
      var part := ReadPart(parts[k]);
      licenses := licenses + part;
      CleanLicensesStep(parts, k, previous, licenses);
      k := k + 1;
    }
    assert parts[..|parts|] == parts;
  }

  lemma CleanLicensesStep(parts: seq<string>, k: nat, previous: seq<License>, licenses: seq<License>)
    requires k < |parts| && previous == CleanLicenses(parts[..k])
    requires licenses == previous + PartLicenses(parts[k])
    ensures licenses == CleanLicenses(parts[..k + 1])
  {
    var ps := parts[..k + 1];
    assert ps[..|ps| - 1] == parts[..k] && ps[|ps| - 1] == parts[k];
    assert CleanLicenses(ps) == CleanLicenses(ps[..|ps| - 1]) + PartLicenses(ps[|ps| - 1]);
  }

  /** `_parse_license_text`: the early exit for an empty text or "-", then the parts read in order. */
  method ParseLicenseText(text: string) returns (licenses: seq<License>)
    ensures licenses == LicenseTextSpec(text)
  {
    if text == [] || text == "-" {
      return [];
    }
    var parts := SplitLicenseText(text);
    licenses := ReadParts(parts);
  }

  /** Every license name is non-empty, trimmed and free of ';'. */
  lemma {:induction false} CleanLicensesNamed(parts: seq<string>)
    ensures forall l :: l in CleanLicenses(parts) ==> l.name != [] && IsTrimmed(l.name) && ';' !in l.name
    decreases |parts|
  {
    if parts != [] {
      CleanLicensesNamed(parts[..|parts| - 1]);
    }
  }

  /** Every license name read from a license text is non-empty, trimmed and free of ';'. */
  lemma LicenseTextNamed(text: string)
    ensures forall l :: l in LicenseTextSpec(text) ==> l.name != [] && IsTrimmed(l.name) && ';' !in l.name
  {
    if text != [] && text != "-" {
      CleanLicensesNamed(SplitLicenseText(text));
    }
  }

  /** Every license of the text carries the canonical URL of its name. */
  lemma LicenseTextUrls(text: string)
    ensures forall l :: l in LicenseTextSpec(text) ==> l.url == UrlText(GetUrl(l.name))
  {
    if text != [] && text != "-" {
      CleanLicensesUrls(SplitLicenseText(text));
    }
  }

  lemma {:induction false} CleanLicensesUrls(parts: seq<string>)
    ensures forall l :: l in CleanLicenses(parts) ==> l.url == UrlText(GetUrl(l.name))
    decreases |parts|
  {
    if parts != [] {
      CleanLicensesUrls(parts[..|parts| - 1]);
    }
  }

  /**
   * A single license name, without commas, semicolons or URLs, is one
   * license of that very name.
   */
  lemma SingleLicenseText(t: string)
    requires t != [] && t != "-" && IsTrimmed(t)
    requires ',' !in t && ';' !in t && !Contains(t, "http://") && !Contains(t, "https://")
    ensures LicenseTextSpec(t) == [NewLicense(t, None)]
  {
    forall p | 0 <= p < |t|
      ensures !Splits(t, p)
    {
    }
    UnsplitText(t);
    StripOfTrimmed(t);
    NoSchemeNoUrl(t);
    RemoveUrlsDeletes(t);
    assert CleanName(t) == t;
    assert [t][..0] == [];
  }

  /** A URL that ends the text is removed, and a text before it without an 'h' is kept. */
  lemma {:induction false} TrailingUrlRemoved(name: string, url: string, q: nat)
    requires q <= |name| && 'h' !in name && UrlMatchAt(url, 0, |url|)
    ensures RemoveUrlsFrom(name + url, q) == name[q..]
    decreases |name| - q
  {
    var s := name + url;
    if q < |name| {
      TrailingUrlRemoved(name, url, q + 1);
      assert s[q] == name[q];
      assert name[q..] == [name[q]] + name[q + 1..];
    } else {
      UrlAfterText(name, url);
    }
  }

  /** A whole match placed after a text is the match found there. */
  lemma UrlAfterText(name: string, url: string)
    requires UrlMatchAt(url, 0, |url|)
    ensures UrlLength(name + url, |name|) == |url|
  {
    var s := name + url;
    var q := |name|;
    forall t: string | |t| <= |url|
      ensures OccursAt(s, t, q) <==> OccursAt(url, t, 0)
    {
      assert s[q..q + |t|] == url[..|t|];
    }
    assert UrlMatchAt(s, q, |url|);
    UrlLengthIsMatch(s, q);
  }

  /** A whole URL at the end of a text without an 'h' is removed, and nothing else is. */
  lemma TrailingUrlDropped(name: string, url: string)
    requires 'h' !in name && UrlMatchAt(url, 0, |url|)
    ensures RemoveUrls(name + url) == name
  {
    TrailingUrlRemoved(name, url, 0);
  }

  /** The URL of the example is a whole match. */
  lemma ExampleUrlIsMatch()
    ensures UrlMatchAt("http://example.com/license", 0, 26)
  {
    var u := "http://example.com/license";
    assert u[..7] == "http://";
  }

  /**
   * A name followed by "; " and a URL that ends the text is one license of
   * that name: the URL is removed and the text cut at the ';'. The name is
   * trimmed and holds no ',', ';' or 'h'; the URL holds no ','.
   */
  lemma NameThenUrl(name: string, url: string)
    requires name != [] && IsTrimmed(name) && ',' !in name && ';' !in name && 'h' !in name
    requires ',' !in url && UrlMatchAt(url, 0, |url|)
    ensures LicenseTextSpec(name + "; " + url) == [NewLicense(name, None)]
  {
    var head := name + "; ";
    var t := head + url;
    assert name + "; " + url == t;
    assert ',' !in head && 'h' !in head;
    forall p | 0 <= p < |t|
      ensures !Splits(t, p)
    {
      if p < |head| {
        assert t[p] == head[p];
      } else {
        assert t[p] == url[p - |head|];
      }
    }
    UnsplitText(t);
    assert t[0] == name[0] && t[|t| - 1] == url[|url| - 1];
    StripOfTrimmed(t);
    TrailingUrlDropped(head, url);
    BeforeFirst(name, "; ", ';');
    StripOfTrimmed(name);
    assert CleanName(t) == name;
    OnePartLicense(t, name);
  }

  /**
   * Worked example of `NameThenUrl`: "MIT; http://example.com/license",
   * given by its two halves, is one license named "MIT".
   */
  lemma UrlDroppedFromName(t: string)
    requires |t| == 31 && t[..5] == "MIT; " && t[5..] == "http://example.com/license"
    ensures LicenseTextSpec(t) == [NewLicense("MIT", None)]
  {
    ExampleHalves(t);
    NameThenUrl(t[..3], t[5..]);
  }

  /** The two halves of the worked example meet the requirements of `NameThenUrl`. */
  lemma ExampleHalves(t: string)
    requires |t| == 31 && t[..5] == "MIT; " && t[5..] == "http://example.com/license"
    ensures t[..3] == "MIT" && t == t[..3] + "; " + t[5..]
    ensures IsTrimmed(t[..3]) && 'h' !in t[..3] && ';' !in t[..3] && ',' !in t[..3]
    ensures ',' !in t[5..] && UrlMatchAt(t[5..], 0, |t[5..]|)
  {
    assert t[..3] == t[..5][..3] && t[3..5] == t[..5][3..];
    ExampleUrlIsMatch();
  }

  /** A text that is one part yields the one license its cleaned name gives. */
  lemma OnePartLicense(t: string, name: string)
    requires t != [] && t != "-" && SplitLicenseText(t) == [t]
    requires CleanName(t) == name && name != []
    ensures LicenseTextSpec(t) == [NewLicense(name, None)]
  {
    assert [t][..0] == [];
  }

  // ---------------------------------------------------------------------
  // Lines to packages
  // ---------------------------------------------------------------------

  /** The license text an `alfresco-` package without one is given. */
  const AlfrescoText: string := "GNU Lesser General " + "Public License v3.0 or later"

  /** The license text after the `alfresco-` fallback. */
  function EffectiveText(name: string, text: string): string {
    if StartsWith(name, "alfresco-") && (text == [] || text == "-") then AlfrescoText else text
  }

  /** A non-empty text other than "-" is kept; only an `alfresco-` package's missing text is replaced. */
  lemma EffectiveTextOnlyFallback(name: string, text: string)
    ensures text != [] && text != "-" ==> EffectiveText(name, text) == text
    ensures EffectiveText(name, text) != text ==>
      StartsWith(name, "alfresco-") && (text == [] || text == "-") && EffectiveText(name, text) == AlfrescoText
  {
  }

  /**
   * One line of scanner output: nothing for a blank line or a line the
   * pattern rejects; otherwise a package of the stripped groups, its
   * licenses read from the (fallback) license text, its source `Original`.
   */
  function ParseLine(line: string): Option<Package> {
    var l := Strip(line);
    if l == [] then None
    else
      match MatchLine(l)
      case None => None
      case Some(g) => Some(PackageOf(g))
  }

  /** The package of a matched line's groups. */
  function PackageOf(g: Groups): Package {
    var name := Strip(g.name);
    Package(name, Strip(g.version), Strip(g.purl), LicenseTextSpec(EffectiveText(name, Strip(g.text))), Original)
  }

  function LinePackages(line: string): (r: seq<Package>)
    ensures |r| <= 1
  {
    match ParseLine(line)
    case None => []
    case Some(p) => [p]
  }

  /** The packages of the lines that parse, in order. */
  function ParsedLines(lines: seq<string>): (r: seq<Package>)
    ensures |r| <= |lines|
    decreases |lines|
  {
    if lines == [] then []
    else ParsedLines(lines[..|lines| - 1]) + LinePackages(lines[|lines| - 1])
  }

  /** `SyftOutputParser.parse`, as a function of the whole output. */
  function ParseSpec(output: string): (r: seq<Package>)
    ensures |r| <= |Lines(output)|
    ensures forall p :: p in r ==> p.source == Original && p.name != []
  {
    ParsedLinesNamed(Lines(output));
    ParsedLines(Lines(output))
  }

  /** A parsed line gives a package of source `Original` with a non-empty name. */
  lemma ParseLineNamed(line: string)
    ensures ParseLine(line).Some? ==> ParseLine(line).value.source == Original && ParseLine(line).value.name != []
  {
    var l := Strip(line);
    if l != [] && MatchLine(l).Some? {
      MatchLineRebuilds(l);
      StripKeepsNonSpace(MatchLine(l).value.name, 0);
    }
  }

  /** Every parsed package has source `Original` and a non-empty name. */
  lemma {:induction false} ParsedLinesNamed(lines: seq<string>)
    ensures forall p :: p in ParsedLines(lines) ==> p.source == Original && p.name != []
    decreases |lines|
  {
    if lines != [] {
      ParsedLinesNamed(lines[..|lines| - 1]);
      ParseLineNamed(lines[|lines| - 1]);
    }
  }

  /** The body of the loop of `SyftOutputParser.parse`: one line read. */
  method ParseOne(line0: string) returns (p: Option<Package>)
    ensures p == ParseLine(line0)
  {
    var line := Strip(line0);
    if line == [] {
      return None;
    }
    var m := MatchLine(line);
    if m.None? {
      return None;
    }
    var g := m.value;
    var name := Strip(g.name);
    var text := Strip(g.text);
    if StartsWith(name, "alfresco-") && (text == [] || text == "-") {
      text := AlfrescoText;
    }
    var licenses := ParseLicenseText(text);
    p := Some(Package(name, Strip(g.version), Strip(g.purl), licenses, Original));
  }

  /** `SyftOutputParser.parse` with its loop over the lines. */
  method Parse(output: string) returns (packages: seq<Package>)
    ensures packages == ParseSpec(output)
  {
    var lines := Lines(output);
    packages := ParseLines(lines);
  }

  /** The loop of `SyftOutputParser.parse` over the lines. */
  method ParseLines(lines: seq<string>) returns (packages: seq<Package>)
    ensures packages == ParsedLines(lines)
  {
    packages := [];
    var i := 0;
    while i < |lines|
      invariant 0 <= i <= |lines|
      invariant packages == ParsedLines(lines[..i])
    {
      packages := ParseStep(lines, i, packages);
      i := i + 1;
    }
    assert lines[..|lines|] == lines;
  }

  /** One pass of the loop of `SyftOutputParser.parse`: the package of line `i`, if any, appended. */
  method ParseStep(lines: seq<string>, i: nat, packages: seq<Package>) returns (next: seq<Package>)
    requires i < |lines| && packages == ParsedLines(lines[..i])
    ensures next == ParsedLines(lines[..i + 1])
  {
    var p := ParseOne(lines[i]);
    ParsedLinesAppend(lines, i);
    next := packages;
    if p.Some? {
      next := next + [p.value];
    }
  }

  /** The packages of one more line are those of the line appended. */
  lemma ParsedLinesAppend(lines: seq<string>, i: nat)
    requires i < |lines|
    ensures ParsedLines(lines[..i + 1]) == ParsedLines(lines[..i]) + LinePackages(lines[i])
  {
    var ls := lines[..i + 1];
    assert ls[..|ls| - 1] == lines[..i] && ls[|ls| - 1] == lines[i];
  }

  /** A line is skipped exactly when it is blank or the pattern rejects it. */
  lemma SkippedLines(line: string)
    ensures ParseLine(line).None? <==> Strip(line) == [] || !MatchesShape(Strip(line))
  {
    MatchLineIffShape(Strip(line));
  }

  lemma AlfrescoTextIsOneName()
    ensures AlfrescoText != [] && AlfrescoText != "-" && IsTrimmed(AlfrescoText)
    ensures ',' !in AlfrescoText && ';' !in AlfrescoText && 'h' !in AlfrescoText
  {
    assert AlfrescoText[0] == 'G' && AlfrescoText[|AlfrescoText| - 1] == 'r';
    AlfrescoHeadHasNoSeparator();
    AlfrescoTailHasNoSeparator();
  }

  lemma AlfrescoHeadHasNoSeparator()
    ensures ',' !in "GNU Lesser General " && ';' !in "GNU Lesser General " && 'h' !in "GNU Lesser General "
  {
  }

  lemma AlfrescoTailHasNoSeparator()
    ensures ',' !in "Public License v3.0 or later" && ';' !in "Public License v3.0 or later"
    ensures 'h' !in "Public License v3.0 or later"
  {
    AlfrescoTailHasNoComma();
    AlfrescoTailHasNoSemicolon();
  }

  lemma AlfrescoTailHasNoComma()
    ensures ',' !in "Public License v3.0 or later"
  {
  }

  lemma AlfrescoTailHasNoSemicolon()
    ensures ';' !in "Public License v3.0 or later"
  {
  }

  /**
   * An `alfresco-` package whose license text is empty or "-" gets exactly
   * one license, the LGPL 3.0 name.
   */
  lemma AlfrescoFallback(line: string)
    requires Strip(line) != [] && MatchLine(Strip(line)).Some?
    requires var g := MatchLine(Strip(line)).value;
      StartsWith(Strip(g.name), "alfresco-") && (Strip(g.text) == [] || Strip(g.text) == "-")
    ensures ParseLine(line).Some?
    ensures ParseLine(line).value.licenses == [NewLicense(AlfrescoText, None)]
  {
    var g := MatchLine(Strip(line)).value;
    var name := Strip(g.name);
    assert EffectiveText(name, Strip(g.text)) == AlfrescoText;
    AlfrescoLicenseText();
    assert PackageOf(g).licenses == [NewLicense(AlfrescoText, None)];
    assert ParseLine(line) == Some(PackageOf(g));
  }

  /** The LGPL 3.0 name, read as a license text, is the one license of that name. */
  lemma AlfrescoLicenseText()
    ensures LicenseTextSpec(AlfrescoText) == [NewLicense(AlfrescoText, None)]
  {
    AlfrescoTextIsOneName();
    CharOfOccurrence(AlfrescoText, "http://", 'h');
    CharOfOccurrence(AlfrescoText, "https://", 'h');
    SingleLicenseText(AlfrescoText);
  }
}

=== FILE: wrappers.dfy ===
/** The optional value used wherever the Python code returns `None` or a value. */
module Wrappers {

  datatype Option<+T> = None | Some(value: T)

}
